=== FILE: README.md ===
# Dawn shader-module core, modelled in Dafny

This project models the part of Dawn's `dawn_native` shader module that decides what a
shader binds and whether a pipeline layout can serve it. The model covers:

- **Reflection** (`ExtractSpirvInfoWithSpirvCross`): turns the resource lists and stage
  variables that spirv-cross reports into an entry point's metadata. The metadata holds
  the stage, one binding map per bind group, the vertex attributes used, and the base
  type of each fragment output. Reflection rejects:
  - a descriptor-set index at or above `kMaxBindGroups`
  - a (group, binding) key declared twice
  - a storage image whose format has no WebGPU counterpart, or whose format cannot be
    used for storage
  - missing `Location` decorations
  - out-of-range vertex and fragment locations
  - push constants and combined image-samplers
- **Conversions**:
  - SPIR-V image dimensionality to WebGPU view dimension
  - SPIR-V image format to WebGPU texture format
  - spirv-cross base type to format component type
- **Compatibility**: each binding the shader declares is checked against a bind group
  layout. The checks are kind (with the read-only-storage and sampler relaxations),
  stage visibility, component type, view dimension, storage format, and minimum buffer
  size. This extends to a whole pipeline layout, where a group without a layout must
  have no shader bindings.
- **Required buffer sizes**: one slot per layout buffer whose minimum size is left at
  zero, in binding-index order, holding the size the shader needs. The pipeline layout
  has one such list per group.
- **Descriptor validation**: the chained-descriptor check run before a module is
  created, and the constructor it guards.
- **Content identity**: the device cache hashes and compares modules by their SPIR-V
  words.
- **TextureUtils tables**: the texture-format tables and their structure.

## Modules

- `wrappers.dfy`: `Option`, `Result` (with `:-`) and `Outcome` (pass or error tag).
- `webgpu.dfy`: the WebGPU enums and limits the core uses. `TextureFormat` is a newtype
  over the format codes.
- `texture_utils.dfy`: the `TextureUtils.h` tables and their ordering, partition and
  membership facts.
- `spirv_conversions.dfy`: the three conversion tables.
- `metadata.dfy`: `ShaderBindingInfo`, `EntryPointMetadata` and the invariants
  reflection establishes.
- `reflection.dfy`: the spirv-cross reflection path.
- `layout.dfy`: the parts of bind group and pipeline layouts the core reads, and the
  invariants layout creation guarantees.
- `compatibility.dfy`: the two compatibility validators.
- `buffer_sizes.dfy`: `GetBindGroupMinBufferSizes` and
  `ComputeRequiredBufferSizesForLayout`.
- `shader_module.dfy`: descriptor validation, construction, hash and equality.

## Model

| member | source | states |
|---|---|---|
| WebGPU.StageBit | src/dawn_native/ShaderModule.cpp:627 | Every stage has a non-zero visibility bit. |
| WebGPU.StageBitsDisjoint | src/dawn_native/ShaderModule.cpp:627-631 | A stage's bit meets another stage's bit exactly when they are the same stage, so a visibility mask admits exactly the stages whose bits it has. |
| SpirvConversions.SpirvDimToTextureViewDimension | src/dawn_native/ShaderModule.cpp:53-75 | The result is `Undefined` iff the dimensionality is not 1D, 2D, 3D or Cube. Otherwise the view has the image's own dimensionality, and it is an array view exactly when a 2D or cube image is arrayed. |
| SpirvConversions.ViewDimensionInjective | src/dawn_native/ShaderModule.cpp:53-75 | For all inputs, two images get the same view dimension iff both dimensionalities are outside 1D, 2D, 3D and Cube, or they have the same such dimensionality and, for 2D and cube images, the same arrayed flag. |
| SpirvConversions.SpirvBaseTypeToFormatType | src/dawn_native/ShaderModule.cpp:39-51 | Float, Int and UInt map to Float, Sint and Uint respectively, and only those do. |
| SpirvConversions.ToWGPUTextureFormat | src/dawn_native/ShaderModule.cpp:150-219 | A SPIR-V format maps to `Undefined` iff WebGPU has no counterpart: Unknown, the 16-bit normalized formats, or Rgb10a2ui. |
| SpirvConversions.ToWGPUTextureFormatInjective | src/dawn_native/ShaderModule.cpp:150-219 | No two SPIR-V formats map to the same defined WebGPU format. |
| Metadata.EmptyMetadata | src/dawn_native/ShaderModule.cpp:767-771 | New metadata has no bindings and no vertex attributes, and every fragment output location is `Other`. |
| Reflection.StageOf | src/dawn_native/ShaderModule.cpp:1006-1019 | The vertex, fragment and GLCompute execution models select the three stages. Any other model is an error. |
| Reflection.StorageTextureAccess | src/dawn_native/ShaderModule.cpp:1099-1107 | A storage image is write-only iff NonReadable. It is read-only iff NonWritable without NonReadable. Otherwise it is read-write. |
| Reflection.ResourceInfo | src/dawn_native/ShaderModule.cpp:1064-1131 | A record fails only for a storage image whose format is undefined (that error) or not storage-capable (the other error). Buffers carry their declared size. Storage buffers are read-only iff NonWritable. Sampled and storage images carry the view dimension, multisampling, component type or format. |
| Reflection.AddDeclaration | src/dawn_native/ShaderModule.cpp:1034-1131 | One resource is recorded iff it has both decorations, its group is below `kMaxBindGroups`, its key is unused, and its record is accepted. The decoration, group-limit and duplicate errors come in that order. On success its record sits at its key and nothing else changes. |
| Reflection.Tag | src/dawn_native/ShaderModule.cpp:1133-1144 | Each resource of a list is declared with that list's binding kind, in list order. |
| Reflection.AddDeclarationsAccepted | src/dawn_native/ShaderModule.cpp:1035-1131 | A list of declarations is recorded without error iff each is decorated, its group is below `kMaxBindGroups`, its key is unused and not repeated, and its record is accepted. |
| Reflection.AddDeclarationsExtends | src/dawn_native/ShaderModule.cpp:1053-1058 | Recording only adds bindings. Every existing record is kept unchanged. |
| Reflection.AddDeclarationsRecords | src/dawn_native/ShaderModule.cpp:1053-1131 | After success, every declaration is stored at its (group, binding) key with the record computed for it. |
| Reflection.AddDeclarationsOnlyDeclared | src/dawn_native/ShaderModule.cpp:1053-1058 | After success, every key present was already present or belongs to a declaration of the list. |
| Reflection.ExtractResourcesBinding | src/dawn_native/ShaderModule.cpp:1029-1133 | One resource list is recorded without error iff its resources, tagged with the list's kind, are accepted on top of the bindings so far. |
| Reflection.AddDeclarationsConcat | src/dawn_native/ShaderModule.cpp:1133-1144 | Recording two lists one after the other is recording their concatenation. The first error stops everything. |
| Reflection.FiveListsInOrder | src/dawn_native/ShaderModule.cpp:1133-1144 | The five `ExtractResourcesBinding` calls in order equal recording one list: uniform buffers, separate images, samplers, storage buffers, then storage images. |
| Reflection.VertexAttributes | src/dawn_native/ShaderModule.cpp:1147-1160 | Vertex inputs are accepted iff each has a location below `kMaxVertexAttributes`. The used attributes are then exactly their locations. A rejection is one of the two vertex-input errors. |
| Reflection.FragmentOutputs | src/dawn_native/ShaderModule.cpp:1180-1201 | Outputs are accepted iff each has a location below `kMaxColorAttachments` and a Float, Sint or Uint base type. Unnamed locations keep their value. The last output at a location decides its type. A rejection is one of the three fragment-output errors. |
| Reflection.StageVariables | src/dawn_native/ShaderModule.cpp:1146-1202 | The stage-variable checks pass iff they are accepted for the stage. Only vertex shaders record attributes, and only fragment shaders change the output types of the empty metadata. A vertex shader fails with its inputs' error first. The missing vertex-output location error holds iff the stage is Vertex, every input is accepted and some output has no location. The missing fragment-input location error holds iff the stage is Fragment and some input has no location. Otherwise a fragment shader fails with its outputs' error. |
| Reflection.ExtractSpirvInfoWithSpirvCross | src/dawn_native/ShaderModule.cpp:998-1205 | On success the stage comes from the execution model, and there are no push constants and no combined image-samplers. Non-vertex stages use no attributes, and non-fragment stages keep every output `Other`. |
| Reflection.ExtractedBindings | src/dawn_native/ShaderModule.cpp:998-1205 | Reflection's result is, in order: the execution-model error, the push-constant error, the combined-sampler error, the first binding error, or the stage-variable result over all five lists' bindings. |
| Reflection.ExtractSpirvInfoAccepted | src/dawn_native/ShaderModule.cpp:998-1205 | Reflection succeeds iff the stage is known, there are no push constants and no combined samplers, every declaration is accepted, and the stage variables are accepted. |
| Reflection.DuplicateBindingRejected | src/dawn_native/ShaderModule.cpp:1053-1058 | Two declared resources with the same (group, binding) key, in any lists, make reflection fail. |
| Reflection.ExtractedBindingsRecorded | src/dawn_native/ShaderModule.cpp:1133-1144 | On success, every declared resource is in the metadata at its key with its computed record. |
| Reflection.ExtractedBindingsDeclared | src/dawn_native/ShaderModule.cpp:1053-1058 | On success, the metadata holds no key that no resource declares. |
| Reflection.StorageBuffersClassified | src/dawn_native/ShaderModule.cpp:1064-1097 | On success, each storage buffer is recorded as read-only iff its block is NonWritable, with its declared size as minimum size. |
| Reflection.StorageImagesClassified | src/dawn_native/ShaderModule.cpp:1099-1124 | On success, each storage image has a defined, storage-capable format. It is recorded with its access kind and its WebGPU format. |
| Reflection.AddDeclarationsFormatsDefined | src/dawn_native/ShaderModule.cpp:1108-1123 | Recording declarations keeps every storage-texture record naming a defined format. |
| Reflection.ExtractedWellFormed | src/dawn_native/ShaderModule.cpp:1108-1160 | Successful metadata is well formed: storage-texture formats are defined and vertex attributes are below the limit. |
| Reflection.ExtractedVertexAttributes | src/dawn_native/ShaderModule.cpp:1146-1160 | On success, a vertex shader's used attributes are exactly its input locations. |
| Reflection.VertexAttributesError | src/dawn_native/ShaderModule.cpp:1147-1160 | For all inputs, the first rejected vertex input decides the error: `MissingVertexInputLocation` if it has no location (:1150), otherwise `VertexAttributeOverLimit` (:1156). |
| Reflection.FragmentOutputsError | src/dawn_native/ShaderModule.cpp:1180-1201 | For all outputs and starting types, the first rejected fragment output decides the error: no location (:1183), then a location over the limit (:1189), then an `Other` base type (:1198). |
| Reflection.FragmentOutputsUnwritten | src/dawn_native/ShaderModule.cpp:767-771 | A location no fragment output names stays `Other`. |
| Reflection.FragmentOutputsLastWrite | src/dawn_native/ShaderModule.cpp:1180-1201 | On success, the last output naming a location has a location below the limit, and that location holds its base type. |
| Reflection.ExtractedFragmentOutputs | src/dawn_native/ShaderModule.cpp:1171-1201 | On success, a fragment shader's output types are those the fragment-output pass computes from all `Other`. |
| Layout.UnpinnedIndices | src/dawn_native/ShaderModule.cpp:557-563 | Every listed index is an entry whose minimum size is zero. |
| Layout.UnpinnedIndicesComplete | src/dawn_native/ShaderModule.cpp:557-563 | Every entry with zero minimum size is listed, in strictly increasing order, so the list is no longer than the entries. |
| Layout.UnverifiedBufferCount | src/dawn_native/ShaderModule.cpp:554-563 | A layout has at most one unverified buffer per buffer entry. |
| Layout.UnverifiedBufferCountZero | src/dawn_native/ShaderModule.cpp:554-563 | A layout has no unverified buffer iff every buffer entry pins its minimum size. |
| Compatibility.KindRelaxations | src/dawn_native/ShaderModule.cpp:601-624 | Two distinct kinds are compatible iff a storage-buffer entry meets a read-only shader buffer or both are sampler kinds. So a read-only entry never serves a writable buffer, and buffer entries serve only buffers. |
| Compatibility.CheckEntry | src/dawn_native/ShaderModule.cpp:598-690 | The checks against one entry pass iff the entry is compatible. Each error is reported iff every earlier check passed and its own fails, in this order: kind conflict, visibility, then component type, storage format, view dimension or minimum size by the entry's kind. |
| Compatibility.CheckBinding | src/dawn_native/ShaderModule.cpp:591-690 | One binding passes iff it is compatible with its entry. A failure names the group and binding. The missing-entry error occurs iff the binding number is not in the layout; otherwise the result is that of the checks against its entry. |
| Compatibility.BufferSizesDecide | src/dawn_native/ShaderModule.cpp:670-679 | For a buffer entry and a visible shader buffer of the same kind, any pair of minimum sizes is compatible iff the size rule admits it. |
| Compatibility.BufferEntryCompatible | src/dawn_native/ShaderModule.cpp:670-679 | For a buffer entry and a visible shader buffer of the same kind, only their minimum sizes decide compatibility. |
| Compatibility.MinBufferSizeRule | src/dawn_native/ShaderModule.cpp:670-679 | A buffer fits iff the layout pins no size or the shader needs no more. So 64 rejects 128, 64 accepts 32, and 0 accepts anything. |
| Compatibility.SamplersInterchangeable | src/dawn_native/ShaderModule.cpp:612-619 | A sampler of either kind fits an entry of either kind iff the entry is visible to the stage. |
| Compatibility.ValidateCompatibilityWithBindGroupLayout | src/dawn_native/ShaderModule.cpp:581-694 | The group passes iff every shader binding fits the layout. A failure is the error of the lowest failing binding number. |
| Compatibility.ValidateCompatibilityWithPipelineLayout | src/dawn_native/ShaderModule.cpp:747-765 | It passes iff every mask group is compatible and every other group has no binding. A missing-layout error names the lowest such group, after all mask groups passed. Any other error is the first binding error of the lowest incompatible mask group. |
| BufferSizes.PackStep | src/dawn_native/ShaderModule.cpp:557-577 | A pinned entry takes no slot. An unpinned one takes the next packed slot. |
| BufferSizes.UnverifiedIndicesExact | src/dawn_native/ShaderModule.cpp:554-563 | The unverified slots are exactly the layout's buffer entries with zero minimum size, each once, in binding-index order. |
| BufferSizes.GetBindGroupMinBufferSizes | src/dawn_native/ShaderModule.cpp:551-579 | One size per unverified buffer, in order. Each is the shader's size for that binding, or 0 if the shader does not declare it. |
| BufferSizes.ComputeRequiredBufferSizesForLayout | src/dawn_native/ShaderModule.cpp:735-745 | Each mask group gets its required sizes. Groups outside the mask get none. |
| BufferSizes.BufferBindingsCovered | src/dawn_native/ShaderModule.cpp:670-679 | A compatible shader buffer lands on a layout buffer. Either the entry pins a size the shader's fits, or the entry has a slot holding the shader's size. |
| ShaderModule.ValidateShaderModuleDescriptor | src/dawn_native/ShaderModule.cpp:698-733 | A descriptor is accepted iff its chain has exactly one struct, which is valid SPIR-V or valid WGSL (when built with WGSL). Each error is tied to its case: missing or extra links, an unknown sType, invalid SPIR-V, WGSL in a build without it, and invalid WGSL. |
| ShaderModule.Construct | src/dawn_native/ShaderModule.cpp:774-800 | A SPIR-V module copies the descriptor's words. A WGSL module keeps its source and starts with no words. |
| ShaderModule.ValidatedDescriptorConstructs | src/dawn_native/ShaderModule.cpp:775-793 | A validated descriptor meets the constructor's assertions, and the module it builds holds the validated content. |
| ShaderModule.HashOfAppend | src/dawn_native/ShaderModule.cpp:1240-1248 | Hashing is incremental: the hash of a concatenation continues the fold from the hash of its prefix. |
| ShaderModule.HashFunc | src/dawn_native/ShaderModule.cpp:1240-1248 | The hash is HashCombine folded over the SPIR-V words from 0, first word first. |
| ShaderModule.EqualityFunc | src/dawn_native/ShaderModule.cpp:1250-1253 | Modules are equal iff their SPIR-V words agree one by one. Equal modules hash alike under any combining function. |
| ShaderModule.SameCodeSameModule | src/dawn_native/ShaderModule.cpp:1250-1253 | Two SPIR-V descriptors with the same words construct modules the cache treats as equal. |
| TextureUtils.AllTextureFormatsLayout | src/utils/TextureUtils.h:25-88 | The full list is the uncompressed runs followed by the BC and ETC2 families. |
| TextureUtils.CompressedFormatsArePartition | src/utils/TextureUtils.h:109-124 | The compressed list is BC, then ETC2, then ASTC (empty). Its size is the sum of theirs, as the static assert demands. |
| TextureUtils.BCAndETC2Disjoint | src/utils/TextureUtils.h:90-104 | No format is in both the BC and ETC2 families. |
| TextureUtils.CompressedFormatsListed | src/utils/TextureUtils.h:109-121 | Every compressed format is in `kAllTextureFormats`. |
| TextureUtils.AllTextureFormatsIncreasing | src/utils/TextureUtils.h:25-88 | The full list is strictly increasing over the defined format codes. |
| TextureUtils.AllTextureFormatsDistinct | src/utils/TextureUtils.h:25-88 | The full list has 63 distinct entries and no `Undefined`. |

## Left out

- The spvc reflection backend (`ExtractSpirvInfoWithSpvc` and its helpers,
  `src/dawn_native/ShaderModule.cpp:828-995`, with the spvc enum conversions at
  :77-148) is not modelled. Only the spirv-cross path is.
- SPIR-V validation, WGSL parsing and validation, and WGSL-to-SPIR-V conversion with
  Tint become parameters:
  - the descriptor check takes them as the `Validators` record
  - `InitializeBase`, vertex pulling and `GetCompileOptions` are not modelled
- spirv-cross's queries become an input: a `ShaderResources` value holding resources,
  decorations, image types and declared sizes. The struct-size computation is not
  modelled; a buffer's declared size is an input.
- The device's format capability table (`GetValidInternalFormat(...).supportsStorageUsage`)
  becomes a `TextureFormat -> bool` parameter.
- `HashCombine` becomes the `combine` parameter of the hash. Its arithmetic is not
  modelled.
- Device toggles, cache removal in the destructor, error-object construction and the
  spvc context are not modelled. Error messages become error tags.
- `ASSERT` and `UNREACHABLE` become preconditions of the members concerned:
  - no layout entry has the read-write storage-texture kind, and storage entries name a
    defined format
  - the constructor receives a chained descriptor of a known sType
  The unexpected execution model keeps the error the release build returns after
  `UNREACHABLE`.
- SpirvConversions.SpirvDimToTextureViewDimension: total. Dimensionalities other than 1D,
  2D, 3D and Cube map to `Undefined`, as the release build does after `UNREACHABLE`
  (:71-73). The debug-only abort is not modelled.
- SpirvConversions.SpirvBaseTypeToFormatType: total. Base types other than Float, Int
  and UInt map to `Other`, as the release build does after `UNREACHABLE` (:47-49). The
  fragment-output check relies on that `Other` to reject such outputs, so the debug-only
  abort is not modelled.
- `src/dawn_native/ShaderModule.h`, `BindingInfo.h`, `BindGroupLayout.h`,
  `PipelineLayout.h`, `PerStage.h`, `common/Constants.h` and `webgpu.h` are not part
  of this model:
  - The limits use Dawn's values of the period: 4 bind groups, 16 vertex attributes,
    4 color attachments.
  - Stage bits are 1, 2 and 4.
  - Texture format codes are numbered in `kAllTextureFormats` order (Undefined is 0).
  - The shader's binding map is taken to be ordered by binding number, so compatibility
    errors are reported for the lowest failing binding.
  - Layout construction is replaced by the `WellFormedLayout` and
    `WellFormedPipelineLayout` invariants it establishes.
- `TextureUtils.h` functions declared without a body (:126-141) are not modelled.
- The `TextureUtils.h` tables are checked as data: their order, partition and
  membership. No code consumes them in this core.
- The dynamic-buffer-offset end-to-end tests and the wire client's shader module are
  not modelled. Neither holds logic of the core.
- The `std::bitset` of vertex attributes is modelled as a set of locations. The
  `std::vector` of required sizes is modelled as a sequence built by appending to the
  next packed slot, rather than a pre-sized array filled by index.
- SPIR-V words and hash values are bounded by newtypes (32 and 64 bits). The hash's
  wrap-around lives inside the `combine` parameter.

=== FILE: buffer_sizes.dfy ===
/** The minimum buffer sizes that must be checked when a bind group is used at draw or
    dispatch time (GetBindGroupMinBufferSizes and ComputeRequiredBufferSizesForLayout):
    one size per buffer entry of the layout that does not pin its own minimum size. */
module BufferSizes {
  import opened WebGPU
  import opened Metadata
  import opened Layout
  import opened Compatibility

  /** The indices found in a prefix of the entries are a prefix of those found in all. */
  lemma {:induction false} UnpinnedIndicesPrefix(entries: seq<LayoutBindingInfo>, i: nat)
    requires i <= |entries|
    ensures UnpinnedIndices(entries[..i]) <= UnpinnedIndices(entries)
    decreases |entries| - i
  {
    if i < |entries| {
      var last := |entries| - 1;
      assert entries[..last][..i] == entries[..i];
      UnpinnedIndicesPrefix(entries[..last], i);
    } else {
      assert entries[..i] == entries;
    }
  }

  /** Looking at one more entry appends its index exactly when its size is not pinned. */
  lemma UnpinnedIndicesStep(entries: seq<LayoutBindingInfo>, i: nat)
    requires i < |entries|
    ensures UnpinnedIndices(entries[..i + 1]) ==
              UnpinnedIndices(entries[..i]) + (if entries[i].minBufferBindingSize == 0 then [i] else [])
  {
    assert entries[..i + 1][..i] == entries[..i];
  }

  /** The packing step: with the indices of the first `i` entries filling the first
      `packed` slots, entry `i` either is pinned and takes no slot, or is unpinned and
      takes slot `packed`. */
  lemma PackStep(entries: seq<LayoutBindingInfo>, i: nat, packed: nat)
    requires i < |entries|
    requires packed <= |UnpinnedIndices(entries)|
    requires UnpinnedIndices(entries[..i]) == UnpinnedIndices(entries)[..packed]
    ensures entries[i].minBufferBindingSize != 0 ==>
              UnpinnedIndices(entries[..i + 1]) == UnpinnedIndices(entries)[..packed]
    ensures entries[i].minBufferBindingSize == 0 ==>
              && packed < |UnpinnedIndices(entries)|
              && UnpinnedIndices(entries)[packed] == i
              && UnpinnedIndices(entries[..i + 1]) == UnpinnedIndices(entries)[..packed + 1]
  {
    var ix := UnpinnedIndices(entries);
    UnpinnedIndicesStep(entries, i);
    UnpinnedIndicesPrefix(entries, i + 1);
    if entries[i].minBufferBindingSize == 0 {
      assert ix[..packed] + [i] <= ix;
      assert ix[..packed + 1] == ix[..packed] + [i];
    }
  }

  /** In a well-formed layout the unverified buffers are exactly the buffer entries with a
      zero minimum size, each once, in binding-index order. */
  lemma UnverifiedIndicesExact(layout: BindGroupLayout)
    requires WellFormedLayout(layout)
    ensures var ix := UnverifiedIndices(layout);
            && (forall k :: 0 <= k < |ix| ==>
                  && ix[k] < |layout.entries|
                  && layout.entries[ix[k]].bindingType.IsBuffer()
                  && layout.entries[ix[k]].minBufferBindingSize == 0)
            && (forall i :: 0 <= i < |layout.entries| && layout.entries[i].bindingType.IsBuffer()
                  && layout.entries[i].minBufferBindingSize == 0
                  ==> i in ix)
            && (forall k, l :: 0 <= k < l < |ix| ==> ix[k] < ix[l])
  {
    var ix := UnverifiedIndices(layout);
    var buffers := layout.entries[..layout.bufferCount];
    UnpinnedIndicesComplete(buffers);
    forall k | 0 <= k < |ix|
      ensures layout.entries[ix[k]] == buffers[ix[k]]
    {
    }
  }

  /** The size the shader declares for binding `n`, or 0 when it does not declare it. */
  function ShaderMinSize(bindings: GroupBindings, n: nat): nat
  {
    if n in bindings then bindings[n].minBufferBindingSize else 0
  }

  /** `sizes` are the required sizes of a group: one slot per unverified buffer of the
      layout, in binding-index order, each holding the shader's size for that buffer's
      binding number (0 when the shader does not declare it). */
  predicate RequiredSizes(sizes: seq<nat>, bindings: GroupBindings, layout: BindGroupLayout)
    requires layout.bufferCount <= |layout.entries|
  {
    && |sizes| == UnverifiedBufferCount(layout)
    && forall k :: 0 <= k < |sizes| ==>
         sizes[k] == ShaderMinSize(bindings, layout.entries[UnverifiedIndices(layout)[k]].binding)
  }

  /** GetBindGroupMinBufferSizes: walks the buffer entries in binding-index order,
      skips those whose layout pins a size, and fills the next packed slot (the slot
      index is the number of slots filled so far) with the shader's size or 0. */
  method GetBindGroupMinBufferSizes(bindings: GroupBindings, layout: BindGroupLayout) returns (sizes: seq<nat>)
    requires layout.bufferCount <= |layout.entries|
    ensures RequiredSizes(sizes, bindings, layout)
  {
    var buffers := layout.entries[..layout.bufferCount];
    var ix := UnverifiedIndices(layout);
    sizes := [];
    for bindingIndex := 0 to layout.bufferCount
      invariant |sizes| <= |ix|
      invariant UnpinnedIndices(buffers[..bindingIndex]) == ix[..|sizes|]
      invariant forall k :: 0 <= k < |sizes| ==> sizes[k] == ShaderMinSize(bindings, buffers[ix[k]].binding)
    {
      PackStep(buffers, bindingIndex, |sizes|);
      var bindingInfo := buffers[bindingIndex];
      if bindingInfo.minBufferBindingSize != 0 {
        continue;
      }
      sizes := sizes + [ShaderMinSize(bindings, bindingInfo.binding)];
    }
    assert buffers[..layout.bufferCount] == buffers;
  }

  /** ComputeRequiredBufferSizesForLayout: the required sizes of every group of the
      pipeline layout's mask; a group outside the mask requires nothing. */
  method ComputeRequiredBufferSizesForLayout(entryPoint: EntryPointMetadata, layout: PipelineLayout)
    returns (sizes: seq<seq<nat>>)
    requires WellFormedPipelineLayout(layout)
    ensures |sizes| == kMaxBindGroups
    ensures forall g :: 0 <= g < kMaxBindGroups && g in layout.bindGroupLayouts ==>
              RequiredSizes(sizes[g], entryPoint.bindings[g], layout.bindGroupLayouts[g])
    ensures forall g :: 0 <= g < kMaxBindGroups && g !in layout.bindGroupLayouts ==> sizes[g] == []
  {
    sizes := [];
    for g := 0 to kMaxBindGroups
      invariant |sizes| == g
      invariant forall h :: 0 <= h < g && h in layout.bindGroupLayouts ==>
                  RequiredSizes(sizes[h], entryPoint.bindings[h], layout.bindGroupLayouts[h])
      invariant forall h :: 0 <= h < g && h !in layout.bindGroupLayouts ==> sizes[h] == []
    {
      var groupSizes := [];
      if g in layout.bindGroupLayouts {
        groupSizes := GetBindGroupMinBufferSizes(entryPoint.bindings[g], layout.bindGroupLayouts[g]);
      }
      sizes := sizes + [groupSizes];
    }
  }

  /** Every buffer binding of a shader that fits a group's layout is checked somewhere:
      it lands on a buffer entry of the layout, and either that entry pins a size the
      shader's size does not exceed, or the entry is an unverified buffer, and its slot
      in the required sizes holds the shader's size. */
  lemma BufferBindingsCovered(stage: SingleShaderStage, bindings: GroupBindings, layout: BindGroupLayout, n: nat)
    requires WellFormedLayout(layout)
    requires GroupCompatible(stage, bindings, layout)
    requires n in bindings && bindings[n].bindingType.IsBuffer()
    ensures n in layout.bindingMap && layout.bindingMap[n] < layout.bufferCount
    ensures var entry := layout.entries[layout.bindingMap[n]];
            entry.minBufferBindingSize != 0 ==> bindings[n].minBufferBindingSize <= entry.minBufferBindingSize
    ensures var i := layout.bindingMap[n];
            layout.entries[i].minBufferBindingSize == 0 ==>
              && (exists k :: 0 <= k < |UnverifiedIndices(layout)| && UnverifiedIndices(layout)[k] == i)
              && ShaderMinSize(bindings, layout.entries[i].binding) == bindings[n].minBufferBindingSize
  {
    assert BindingCompatible(stage, n, bindings[n], layout);
    var i := layout.bindingMap[n];
    KindRelaxations(layout.entries[i].bindingType, bindings[n].bindingType);
    UnverifiedIndicesExact(layout);
    if layout.entries[i].minBufferBindingSize == 0 {
      assert layout.entries[i].binding == n;
    }
  }
}

=== FILE: compatibility.dfy ===
/** Whether the bindings an entry point declares fit a bind group layout and a pipeline
    layout (ValidateCompatibilityWithBindGroupLayout and
    ValidateCompatibilityWithPipelineLayout). */
module Compatibility {
  import opened Wrappers
  import opened WebGPU
  import opened Metadata
  import opened Layout

  /** The reasons a shader binding does not fit, each naming the offending declaration. */
  datatype CompatError =
    | MissingLayoutEntry(group: nat, binding: nat)
    | BindingTypeConflict(group: nat, binding: nat)
    | NotVisible(group: nat, binding: nat)
    | ComponentTypeMismatch(group: nat, binding: nat)
    | ViewDimensionMismatch(group: nat, binding: nat)
    | StorageFormatMismatch(group: nat, binding: nat)
    | MinBufferSizeTooSmall(group: nat, binding: nat)
    | MissingBindGroupLayout(group: nat)

  // ---------------------------------------------------------------------------------
  // One binding

  /** A layout entry of kind `layoutType` can serve a shader binding of kind `shaderType`:
      the kinds are equal, or a read-write storage buffer serves a read-only one, or a
      sampler and a comparison sampler stand in for each other. */
  predicate KindConversionAllowed(layoutType: BindingType, shaderType: BindingType)
  {
    || layoutType == shaderType
    || (layoutType.StorageBuffer? && shaderType.ReadonlyStorageBuffer?)
    || (layoutType.Sampler? && shaderType.ComparisonSampler?)
    || (layoutType.ComparisonSampler? && shaderType.Sampler?)
  }

  /** The two relaxations, and the substitution that is not one: a read-only layout
      entry never serves a writable storage buffer, and no other pair of distinct kinds
      is allowed. */
  lemma KindRelaxations(layoutType: BindingType, shaderType: BindingType)
    ensures KindConversionAllowed(StorageBuffer, ReadonlyStorageBuffer)
    ensures KindConversionAllowed(Sampler, ComparisonSampler) && KindConversionAllowed(ComparisonSampler, Sampler)
    ensures !KindConversionAllowed(ReadonlyStorageBuffer, StorageBuffer)
    ensures KindConversionAllowed(layoutType, shaderType) && layoutType != shaderType ==>
              (layoutType.IsBuffer() && shaderType.IsBuffer()) || (layoutType.IsSamplerKind() && shaderType.IsSamplerKind())
    ensures KindConversionAllowed(layoutType, shaderType) && layoutType.IsBuffer() ==> shaderType.IsBuffer()
    ensures layoutType != shaderType ==>
              (KindConversionAllowed(layoutType, shaderType) <==>
                 || (layoutType.StorageBuffer? && shaderType.ReadonlyStorageBuffer?)
                 || (layoutType.IsSamplerKind() && shaderType.IsSamplerKind()))
  {
  }

  /** The minimum-size rule of buffer bindings: a layout size of zero accepts every
      shader size, otherwise the shader's size must not exceed the layout's. */
  predicate MinSizeFits(layoutSize: nat, shaderSize: nat)
  {
    layoutSize == 0 || shaderSize <= layoutSize
  }

  /** Everything a layout entry must agree on with a shader binding it serves: an allowed
      kind, visibility to the stage, and then, by the layout's kind, the component type
      and view dimension of a sampled texture, the format and view dimension of a
      read-only or write-only storage texture, or the minimum size of a buffer. */
  predicate EntryCompatible(stage: SingleShaderStage, layoutInfo: LayoutBindingInfo, shaderInfo: ShaderBindingInfo)
  {
    && KindConversionAllowed(layoutInfo.bindingType, shaderInfo.bindingType)
    && layoutInfo.visibility & StageBit(stage) != 0
    && (layoutInfo.bindingType.SampledTexture? ==>
          && layoutInfo.textureComponentType == shaderInfo.textureComponentType
          && layoutInfo.viewDimension == shaderInfo.viewDimension)
    && (layoutInfo.bindingType.IsSizedStorageTexture() ==>
          && layoutInfo.storageTextureFormat == shaderInfo.storageTextureFormat
          && layoutInfo.viewDimension == shaderInfo.viewDimension)
    && (layoutInfo.bindingType.IsBuffer() ==>
          MinSizeFits(layoutInfo.minBufferBindingSize, shaderInfo.minBufferBindingSize))
  }

  /** A shader binding fits a layout when the layout has an entry for its number and that
      entry is compatible with it. */
  predicate BindingCompatible(stage: SingleShaderStage, n: nat, shaderInfo: ShaderBindingInfo, layout: BindGroupLayout)
    requires WellFormedLayout(layout)
  {
    n in layout.bindingMap && EntryCompatible(stage, layout.entries[layout.bindingMap[n]], shaderInfo)
  }

  /** The checks of one shader binding against the layout entry of its number, in the
      order the validator makes them: each error is reported exactly when every earlier
      check passed and its own check fails. An entry of the read-write storage-texture
      kind is unreachable here. */
  function CheckEntry(stage: SingleShaderStage, group: nat, n: nat, l: LayoutBindingInfo, shaderInfo: ShaderBindingInfo)
    : (r: Outcome<CompatError>)
    requires !l.bindingType.StorageTexture?  // layout creation never makes a read-write storage-texture entry
    ensures r.Pass? <==> EntryCompatible(stage, l, shaderInfo)
    ensures var kindOk := KindConversionAllowed(l.bindingType, shaderInfo.bindingType);
            var visible := l.visibility & StageBit(stage) != 0;
            && (r == Fail(BindingTypeConflict(group, n)) <==> !kindOk)
            && (r == Fail(NotVisible(group, n)) <==> kindOk && !visible)
            && (r == Fail(ComponentTypeMismatch(group, n)) <==>
                  kindOk && visible && l.bindingType.SampledTexture?
                  && l.textureComponentType != shaderInfo.textureComponentType)
            && (r == Fail(StorageFormatMismatch(group, n)) <==>
                  kindOk && visible && l.bindingType.IsSizedStorageTexture()
                  && l.storageTextureFormat != shaderInfo.storageTextureFormat)
            && (r == Fail(ViewDimensionMismatch(group, n)) <==>
                  && kindOk && visible
                  && ((l.bindingType.SampledTexture? && l.textureComponentType == shaderInfo.textureComponentType)
                      || (l.bindingType.IsSizedStorageTexture() && l.storageTextureFormat == shaderInfo.storageTextureFormat))
                  && l.viewDimension != shaderInfo.viewDimension)
            && (r == Fail(MinBufferSizeTooSmall(group, n)) <==>
                  kindOk && visible && l.bindingType.IsBuffer()
                  && !MinSizeFits(l.minBufferBindingSize, shaderInfo.minBufferBindingSize))
    ensures r.Fail? ==> !r.error.MissingLayoutEntry? && !r.error.MissingBindGroupLayout?
                        && r.error.group == group && r.error.binding == n
  {
    if !KindConversionAllowed(l.bindingType, shaderInfo.bindingType) then Fail(BindingTypeConflict(group, n))
    else if l.visibility & StageBit(stage) == 0 then Fail(NotVisible(group, n))
    else
      match l.bindingType
      case SampledTexture =>
        if l.textureComponentType != shaderInfo.textureComponentType then Fail(ComponentTypeMismatch(group, n))
        else if l.viewDimension != shaderInfo.viewDimension then Fail(ViewDimensionMismatch(group, n))
        else Pass
      case ReadonlyStorageTexture | WriteonlyStorageTexture =>
        if l.storageTextureFormat != shaderInfo.storageTextureFormat then Fail(StorageFormatMismatch(group, n))
        else if l.viewDimension != shaderInfo.viewDimension then Fail(ViewDimensionMismatch(group, n))
        else Pass
      case UniformBuffer | ReadonlyStorageBuffer | StorageBuffer =>
        if l.minBufferBindingSize != 0 && shaderInfo.minBufferBindingSize > l.minBufferBindingSize then
          Fail(MinBufferSizeTooSmall(group, n))
        else Pass
      case Sampler | ComparisonSampler => Pass
  }

  /** The checks of one shader binding against a layout: first that the layout has an
      entry for its number, then the checks against that entry. */
  function CheckBinding(stage: SingleShaderStage, group: nat, n: nat, shaderInfo: ShaderBindingInfo,
                        layout: BindGroupLayout): (r: Outcome<CompatError>)
    requires WellFormedLayout(layout)
    ensures r.Pass? <==> BindingCompatible(stage, n, shaderInfo, layout)
    ensures r.Fail? ==> !r.error.MissingBindGroupLayout? && r.error.group == group && r.error.binding == n
    ensures r == Fail(MissingLayoutEntry(group, n)) <==> n !in layout.bindingMap
    ensures n in layout.bindingMap ==> r == CheckEntry(stage, group, n, layout.entries[layout.bindingMap[n]], shaderInfo)
  {
    if n !in layout.bindingMap then Fail(MissingLayoutEntry(group, n))
    else CheckEntry(stage, group, n, layout.entries[layout.bindingMap[n]], shaderInfo)
  }

  /** Between a buffer entry and a shader buffer of its own kind visible to the stage,
      only the minimum sizes decide. */
  lemma BufferEntryCompatible(stage: SingleShaderStage, layoutInfo: LayoutBindingInfo, shaderInfo: ShaderBindingInfo)
    requires layoutInfo.bindingType.IsBuffer() && shaderInfo.bindingType == layoutInfo.bindingType
    requires layoutInfo.visibility & StageBit(stage) != 0
    ensures EntryCompatible(stage, layoutInfo, shaderInfo) <==>
              MinSizeFits(layoutInfo.minBufferBindingSize, shaderInfo.minBufferBindingSize)
  {
    BufferSizesDecide(stage, layoutInfo, shaderInfo, layoutInfo.minBufferBindingSize, shaderInfo.minBufferBindingSize);
    assert layoutInfo.(minBufferBindingSize := layoutInfo.minBufferBindingSize) == layoutInfo;
    assert shaderInfo.(minBufferBindingSize := shaderInfo.minBufferBindingSize) == shaderInfo;
  }

  /** The same with the two minimum sizes replaced by any others. */
  lemma BufferSizesDecide(stage: SingleShaderStage, layoutInfo: LayoutBindingInfo, shaderInfo: ShaderBindingInfo,
                          layoutSize: nat, shaderSize: nat)
    requires layoutInfo.bindingType.IsBuffer() && shaderInfo.bindingType == layoutInfo.bindingType
    requires layoutInfo.visibility & StageBit(stage) != 0
    ensures EntryCompatible(stage, layoutInfo.(minBufferBindingSize := layoutSize),
                            shaderInfo.(minBufferBindingSize := shaderSize)) <==>
              MinSizeFits(layoutSize, shaderSize)
  {
    var l := layoutInfo.(minBufferBindingSize := layoutSize);
    var s := shaderInfo.(minBufferBindingSize := shaderSize);
    assert l.bindingType == layoutInfo.bindingType && l.visibility == layoutInfo.visibility;
    assert KindConversionAllowed(l.bindingType, s.bindingType);
    assert !l.bindingType.SampledTexture? && !l.bindingType.IsSizedStorageTexture();
  }

  /** The buffer-size rule on concrete sizes: a layout pinning 64 bytes rejects a shader
      needing 128 and accepts one needing 32, and a layout pinning nothing accepts any
      size. Samplers are not checked beyond kind and visibility. */
  lemma MinBufferSizeRule(stage: SingleShaderStage, layoutInfo: LayoutBindingInfo, shaderInfo: ShaderBindingInfo)
    requires layoutInfo.bindingType.IsBuffer() && shaderInfo.bindingType == layoutInfo.bindingType
    requires layoutInfo.visibility & StageBit(stage) != 0
    ensures EntryCompatible(stage, layoutInfo, shaderInfo) <==>
              layoutInfo.minBufferBindingSize == 0 || shaderInfo.minBufferBindingSize <= layoutInfo.minBufferBindingSize
    ensures !EntryCompatible(stage, layoutInfo.(minBufferBindingSize := 64), shaderInfo.(minBufferBindingSize := 128))
    ensures EntryCompatible(stage, layoutInfo.(minBufferBindingSize := 64), shaderInfo.(minBufferBindingSize := 32))
    ensures EntryCompatible(stage, layoutInfo.(minBufferBindingSize := 0), shaderInfo)
  {
    BufferEntryCompatible(stage, layoutInfo, shaderInfo);
    BufferSizesDecide(stage, layoutInfo, shaderInfo, 64, 128);
    BufferSizesDecide(stage, layoutInfo, shaderInfo, 64, 32);
    BufferSizesDecide(stage, layoutInfo, shaderInfo, 0, shaderInfo.minBufferBindingSize);
    assert shaderInfo.(minBufferBindingSize := shaderInfo.minBufferBindingSize) == shaderInfo;
  }

  /** A sampler binding fits any visible entry of either sampler kind. */
  lemma SamplersInterchangeable(stage: SingleShaderStage, layoutInfo: LayoutBindingInfo, shaderInfo: ShaderBindingInfo)
    requires layoutInfo.bindingType.IsSamplerKind() && shaderInfo.bindingType.IsSamplerKind()
    ensures EntryCompatible(stage, layoutInfo, shaderInfo) <==> layoutInfo.visibility & StageBit(stage) != 0
  {
  }

  // ---------------------------------------------------------------------------------
  // One group

  /** Every binding the shader declares in a group fits the group's layout. */
  predicate GroupCompatible(stage: SingleShaderStage, bindings: GroupBindings, layout: BindGroupLayout)
    requires WellFormedLayout(layout)
  {
    forall n :: n in bindings ==> BindingCompatible(stage, n, bindings[n], layout)
  }

  /** `n` is the least binding number of `s`. */
  predicate IsLeast(n: nat, s: set<nat>)
  {
    n in s && forall k :: k in s ==> n <= k
  }

  /** A non-empty finite set of binding numbers has a least element. */
  lemma {:induction false} LeastExists(s: set<nat>)
    requires s != {}
    ensures exists n :: IsLeast(n, s)
    decreases |s|
  {
    var x :| x in s;
    if s == {x} {
      assert IsLeast(x, s);
    } else {
      var rest := s - {x};
      LeastExists(rest);
      var m :| IsLeast(m, rest);
      assert forall k :: k in s ==> k == x || k in rest;
      if x < m {
        assert IsLeast(x, s);
      } else {
        assert IsLeast(m, s);
      }
    }
  }

  /** ValidateCompatibilityWithBindGroupLayout: checks the shader's bindings of `group`
      in increasing binding-number order (the order of the shader's binding map) and
      reports the first that does not fit. */
  method ValidateCompatibilityWithBindGroupLayout(group: nat, entryPoint: EntryPointMetadata, layout: BindGroupLayout)
    returns (r: Outcome<CompatError>)
    requires group < kMaxBindGroups
    requires WellFormedLayout(layout)
    ensures r.Pass? <==> GroupCompatible(entryPoint.stage, entryPoint.bindings[group], layout)
    ensures r.Fail? ==>
              exists n :: n in entryPoint.bindings[group]
                && r == CheckBinding(entryPoint.stage, group, n, entryPoint.bindings[group][n], layout)
                && forall m :: m in entryPoint.bindings[group] && m < n ==>
                     BindingCompatible(entryPoint.stage, m, entryPoint.bindings[group][m], layout)
  {
    var bindings := entryPoint.bindings[group];
    var remaining := bindings.Keys;
    while remaining != {}
      invariant remaining <= bindings.Keys
      invariant forall m :: m in bindings && m !in remaining ==>
                  BindingCompatible(entryPoint.stage, m, bindings[m], layout)
      invariant forall m, k :: m in bindings && m !in remaining && k in remaining ==> m < k
      decreases |remaining|
    {
      LeastExists(remaining);
      var n :| IsLeast(n, remaining);
      var check := CheckBinding(entryPoint.stage, group, n, bindings[n], layout);
      if check.Fail? {
        assert forall m :: m in bindings && m < n ==> m !in remaining;
        return check;
      }
      remaining := remaining - {n};
    }
    assert forall m :: m in bindings ==> m !in remaining;
    return Pass;
  }

  // ---------------------------------------------------------------------------------
  // Whole pipeline

  /** The pipeline layout serves the entry point: every group of its mask is compatible
      with the shader's bindings of that group, and every group outside the mask has no
      shader binding. */
  predicate PipelineCompatible(entryPoint: EntryPointMetadata, layout: PipelineLayout)
    requires WellFormedPipelineLayout(layout)
  {
    && (forall g :: g in layout.bindGroupLayouts ==>
          GroupCompatible(entryPoint.stage, entryPoint.bindings[g], layout.bindGroupLayouts[g]))
    && (forall g :: 0 <= g < kMaxBindGroups && g !in layout.bindGroupLayouts ==> |entryPoint.bindings[g]| == 0)
  }

  /** ValidateCompatibilityWithPipelineLayout: the groups of the mask in increasing
      order, then the groups outside it. An error from the mask is the first binding error
      of the lowest incompatible group; an error from outside the mask names the lowest
      group with bindings and no layout, and comes only after every group of the mask
      passed. */
  method ValidateCompatibilityWithPipelineLayout(entryPoint: EntryPointMetadata, layout: PipelineLayout)
    returns (r: Outcome<CompatError>)
    requires WellFormedPipelineLayout(layout)
    ensures r.Pass? <==> PipelineCompatible(entryPoint, layout)
    ensures r.Fail? && r.error.MissingBindGroupLayout? ==>
              && r.error.group < kMaxBindGroups
              && r.error.group !in layout.bindGroupLayouts
              && |entryPoint.bindings[r.error.group]| > 0
              && (forall g :: g in layout.bindGroupLayouts ==>
                    GroupCompatible(entryPoint.stage, entryPoint.bindings[g], layout.bindGroupLayouts[g]))
              && (forall g :: 0 <= g < r.error.group && g !in layout.bindGroupLayouts ==> |entryPoint.bindings[g]| == 0)
    ensures r.Fail? && !r.error.MissingBindGroupLayout? ==>
              && r.error.group in layout.bindGroupLayouts
              && (forall h :: h in layout.bindGroupLayouts && h < r.error.group ==>
                    GroupCompatible(entryPoint.stage, entryPoint.bindings[h], layout.bindGroupLayouts[h]))
              && exists n :: n in entryPoint.bindings[r.error.group]
                   && r == CheckBinding(entryPoint.stage, r.error.group, n, entryPoint.bindings[r.error.group][n],
                                        layout.bindGroupLayouts[r.error.group])
                   && forall m :: m in entryPoint.bindings[r.error.group] && m < n ==>
                        BindingCompatible(entryPoint.stage, m, entryPoint.bindings[r.error.group][m],
                                          layout.bindGroupLayouts[r.error.group])
  {
    var g := 0;
    while g < kMaxBindGroups
      invariant 0 <= g <= kMaxBindGroups
      invariant forall h :: h in layout.bindGroupLayouts && h < g ==>
                  GroupCompatible(entryPoint.stage, entryPoint.bindings[h], layout.bindGroupLayouts[h])
    {
      if g in layout.bindGroupLayouts {
        var check := ValidateCompatibilityWithBindGroupLayout(g, entryPoint, layout.bindGroupLayouts[g]);
        if check.Fail? {
          return check;
        }
      }
      g := g + 1;
    }
    g := 0;
    while g < kMaxBindGroups
      invariant 0 <= g <= kMaxBindGroups
      invariant forall h :: 0 <= h < g && h !in layout.bindGroupLayouts ==> |entryPoint.bindings[h]| == 0
    {
      if g !in layout.bindGroupLayouts && |entryPoint.bindings[g]| > 0 {
        return Fail(MissingBindGroupLayout(g));
      }
      g := g + 1;
    }
    return Pass;
  }
}

=== FILE: layout.dfy ===
/** The parts of bind group layouts and pipeline layouts that the compatibility check
    and the required-buffer-size computation read. Layout construction and its own
    validation are not part of this model; the invariants they establish, and that the
    shader-module core relies on, are the `WellFormedLayout` and `WellFormedPipelineLayout` predicates below. */
module Layout {
  import opened WebGPU

  /** BindingInfo: one entry of a bind group layout. */
  datatype LayoutBindingInfo = LayoutBindingInfo(
    binding: nat,
    bindingType: BindingType,
    visibility: ShaderStageFlags,
    textureComponentType: FormatType,
    viewDimension: TextureViewDimension,
    storageTextureFormat: TextureFormat,
    minBufferBindingSize: nat)

  /** BindGroupLayoutBase as the core reads it: the entries in binding-index order, the
      map from binding number to binding index, and the number of buffer entries, which
      are packed first. */
  datatype BindGroupLayout = BindGroupLayout(
    entries: seq<LayoutBindingInfo>,
    bindingMap: map<nat, nat>,
    bufferCount: nat)

  /** The layout invariants the core relies on: the binding map and the entries agree,
      buffer entries are exactly the first `bufferCount` ones, no entry has the
      unsupported read-write storage-texture kind, and every read-only or write-only
      storage-texture entry names a defined format. */
  predicate WellFormedLayout(layout: BindGroupLayout)
  {
    && layout.bufferCount <= |layout.entries|
    && (forall n :: n in layout.bindingMap ==>
          layout.bindingMap[n] < |layout.entries| && layout.entries[layout.bindingMap[n]].binding == n)
    && (forall i :: 0 <= i < |layout.entries| ==>
          && layout.entries[i].binding in layout.bindingMap
          && layout.bindingMap[layout.entries[i].binding] == i
          && (i < layout.bufferCount <==> layout.entries[i].bindingType.IsBuffer())
          && !layout.entries[i].bindingType.StorageTexture?
          && (layout.entries[i].bindingType.IsSizedStorageTexture() ==>
                layout.entries[i].storageTextureFormat != Undefined))
  }

  /** The binding indices of the entries whose minimum buffer size is zero, in increasing
      order (UnpinnedIndicesComplete states that every such index is listed, once). */
  function UnpinnedIndices(entries: seq<LayoutBindingInfo>): (ix: seq<nat>)
    ensures forall k :: 0 <= k < |ix| ==> ix[k] < |entries| && entries[ix[k]].minBufferBindingSize == 0
    decreases |entries|
  {
    if |entries| == 0 then []
    else
      var last := |entries| - 1;
      UnpinnedIndices(entries[..last]) + (if entries[last].minBufferBindingSize == 0 then [last] else [])
  }

  /** Every unpinned index is listed, the list is strictly increasing, and it lists no
      more indices than there are entries. */
  lemma {:induction false} UnpinnedIndicesComplete(entries: seq<LayoutBindingInfo>)
    ensures var ix := UnpinnedIndices(entries);
            && (forall i :: 0 <= i < |entries| && entries[i].minBufferBindingSize == 0 ==> i in ix)
            && (forall k, l :: 0 <= k < l < |ix| ==> ix[k] < ix[l])
            && |ix| <= |entries|
    decreases |entries|
  {
    if |entries| > 0 {
      var last := |entries| - 1;
      UnpinnedIndicesComplete(entries[..last]);
      assert forall i :: 0 <= i < last ==> entries[..last][i] == entries[i];
    }
  }

  /** The binding indices of a layout's "unverified" buffers: the buffer entries whose
      minimum size the layout leaves at zero, so that it is checked at draw or dispatch
      time. */
  function UnverifiedIndices(layout: BindGroupLayout): seq<nat>
    requires layout.bufferCount <= |layout.entries|
  {
    UnpinnedIndices(layout.entries[..layout.bufferCount])
  }

  /** GetUnverifiedBufferCount: at most one per buffer entry. */
  function UnverifiedBufferCount(layout: BindGroupLayout): (r: nat)
    requires layout.bufferCount <= |layout.entries|
    ensures r <= layout.bufferCount
  {
    UnpinnedIndicesComplete(layout.entries[..layout.bufferCount]);
    |UnverifiedIndices(layout)|
  }

  /** A layout has no unverified buffer exactly when every buffer entry pins its minimum
      size. */
  lemma UnverifiedBufferCountZero(layout: BindGroupLayout)
    requires layout.bufferCount <= |layout.entries|
    ensures UnverifiedBufferCount(layout) == 0 <==>
              forall i :: 0 <= i < layout.bufferCount ==> layout.entries[i].minBufferBindingSize != 0
  {
    var buffers := layout.entries[..layout.bufferCount];
    var ix := UnverifiedIndices(layout);
    UnpinnedIndicesComplete(buffers);
    if |ix| > 0 {
      assert buffers[ix[0]] == layout.entries[ix[0]];
    } else {
      forall i | 0 <= i < layout.bufferCount
        ensures layout.entries[i].minBufferBindingSize != 0
      {
        assert buffers[i] == layout.entries[i];
      }
    }
  }

  /** PipelineLayoutBase: the bind group layout of each group in its mask. */
  datatype PipelineLayout = PipelineLayout(bindGroupLayouts: map<nat, BindGroupLayout>)

  predicate WellFormedPipelineLayout(layout: PipelineLayout)
  {
    forall g :: g in layout.bindGroupLayouts ==> g < kMaxBindGroups && WellFormedLayout(layout.bindGroupLayouts[g])
  }
}

=== FILE: metadata.dfy ===
/** What reflection records about the single entry point of a shader module: its stage,
    the resources it binds (per bind group, keyed by binding number), the vertex
    attributes it reads and the base types of its fragment outputs. */
module Metadata {
  import opened WebGPU

  /** ShaderModuleBase::ShaderBindingInfo, without the spirv-cross object ids. */
  datatype ShaderBindingInfo = ShaderBindingInfo(
    bindingType: BindingType,
    minBufferBindingSize: nat,
    multisampled: bool,
    viewDimension: TextureViewDimension,
    textureComponentType: FormatType,
    storageTextureFormat: TextureFormat)

  /** A binding record whose kind is `kind` and whose other fields hold their defaults:
      no size requirement, not multisampled, undefined view dimension, float components
      and undefined storage format. */
  function DefaultBindingInfo(kind: BindingType): (info: ShaderBindingInfo)
    ensures info.bindingType == kind
  {
    ShaderBindingInfo(kind, 0, false, ViewUndefined, Float, Undefined)
  }

  /** The bindings of one bind group, keyed by binding number. */
  type GroupBindings = map<nat, ShaderBindingInfo>

  /** ModuleBindingInfo: one map of bindings per bind group index. */
  type ModuleBindingInfo = s: seq<GroupBindings> | |s| == kMaxBindGroups
    witness [map[], map[], map[], map[]]

  /** FragmentOutputBaseTypes: the base type written to each color attachment location. */
  type FragmentOutputBaseTypes = s: seq<FormatType> | |s| == kMaxColorAttachments
    witness [Other, Other, Other, Other]

  /** ShaderModuleBase::EntryPointMetadata. The vertex-attribute bitset is the set of
      its raised bit positions. */
  datatype EntryPointMetadata = EntryPointMetadata(
    stage: SingleShaderStage,
    bindings: ModuleBindingInfo,
    usedVertexAttributes: set<nat>,
    fragmentOutputFormatBaseTypes: FragmentOutputBaseTypes)

  /** No binding in any group. */
  const kNoBindings: ModuleBindingInfo := [map[], map[], map[], map[]]

  /** Every color attachment location unused. */
  const kNoFragmentOutputs: FragmentOutputBaseTypes := [Other, Other, Other, Other]

  /** The freshly constructed metadata of a stage: no bindings, no vertex attributes and
      every fragment output location `Other` (unused). */
  function EmptyMetadata(stage: SingleShaderStage): (m: EntryPointMetadata)
    ensures m.stage == stage
    ensures forall g :: 0 <= g < kMaxBindGroups ==> m.bindings[g] == map[]
    ensures m.usedVertexAttributes == {}
    ensures forall l :: 0 <= l < kMaxColorAttachments ==> m.fragmentOutputFormatBaseTypes[l] == Other
  {
    EntryPointMetadata(stage, kNoBindings, {}, kNoFragmentOutputs)
  }

  /** A storage-texture binding names a defined format. */
  predicate StorageFormatDefined(info: ShaderBindingInfo)
  {
    info.bindingType.IsSizedStorageTexture() || info.bindingType.StorageTexture? ==> info.storageTextureFormat != Undefined
  }

  /** Every storage-texture binding of every group names a defined format. */
  predicate BindingFormatsDefined(bindings: ModuleBindingInfo)
  {
    forall g, n :: 0 <= g < kMaxBindGroups && n in bindings[g] ==> StorageFormatDefined(bindings[g][n])
  }

  /** The invariants reflection establishes: every storage-texture binding names a
      defined format, and every used vertex attribute is below the attribute limit. */
  predicate WellFormed(m: EntryPointMetadata)
  {
    && BindingFormatsDefined(m.bindings)
    && (forall a :: a in m.usedVertexAttributes ==> a < kMaxVertexAttributes)
  }
}

=== FILE: reflection.dfy ===
/** Reflection of a SPIR-V entry point through spirv-cross: the execution model, the
    decorated resources and the stage inputs and outputs are turned into the entry
    point's metadata, or into the first validation error met. The answers of the
    spirv-cross queries (decorations, types, block flags, declared struct sizes) are
    given as fields of the input records. */
module Reflection {
  import opened Wrappers
  import opened WebGPU
  import opened SpirvConversions
  import opened Metadata

  /** spv::ExecutionModel */
  datatype ExecutionModel =
    | ExecutionModelVertex
    | ExecutionModelTessellationControl
    | ExecutionModelTessellationEvaluation
    | ExecutionModelGeometry
    | ExecutionModelFragment
    | ExecutionModelGLCompute
    | ExecutionModelKernel

  /** SPIRType::ImageType of a resource, with the base type of its sampled component. */
  datatype ImageType = ImageType(
    dim: SpvDim,
    arrayed: bool,
    ms: bool,
    format: SpvImageFormat,
    componentType: SpvBaseType)

  /** A spirv_cross::Resource together with what the compiler reports about it: its
      Binding and DescriptorSet decorations (absent when undecorated), the declared size
      of its block with one element in a trailing runtime array, the NonWritable flag of
      its buffer block, its NonReadable and NonWritable decorations and its image type. */
  datatype Resource = Resource(
    binding: Option<nat>,
    descriptorSet: Option<nat>,
    declaredSize: nat,
    blockNonWritable: bool,
    nonReadable: bool,
    nonWritable: bool,
    image: ImageType)

  /** A stage input or output: its Location decoration and the base type of its type. */
  datatype StageVariable = StageVariable(location: Option<nat>, baseType: SpvBaseType)

  /** spirv_cross::ShaderResources; only the sizes of the two rejected lists matter. */
  datatype ShaderResources = ShaderResources(
    pushConstantBuffers: nat,
    sampledImages: nat,
    uniformBuffers: seq<Resource>,
    separateImages: seq<Resource>,
    separateSamplers: seq<Resource>,
    storageBuffers: seq<Resource>,
    storageImages: seq<Resource>,
    stageInputs: seq<StageVariable>,
    stageOutputs: seq<StageVariable>)

  /** The validation errors reflection reports, one tag per message. */
  datatype ReflectionError =
    | UnexpectedExecutionModel
    | PushConstantsUnsupported
    | CombinedImageSamplersUnsupported
    | MissingBindingDecoration
    | MissingDescriptorSetDecoration
    | BindGroupIndexOverLimit
    | DuplicateBinding
    | InvalidStorageImageFormat
    | UnsupportedStorageFormat
    | MissingVertexInputLocation
    | VertexAttributeOverLimit
    | MissingVertexOutputLocation
    | MissingFragmentInputLocation
    | MissingFragmentOutputLocation
    | FragmentOutputOverLimit
    | UnexpectedFragmentOutputType

  /** The (bind group, binding number) pair a resource is declared at. */
  datatype BindingKey = BindingKey(group: nat, binding: nat)

  /** A resource together with the binding kind of the list it was reported in. */
  datatype Declaration = Declaration(resource: Resource, kind: BindingType)

  // ---------------------------------------------------------------------------------
  // Stage

  /** The stage of an execution model; models other than vertex, fragment and compute
      are rejected. */
  function StageOf(model: ExecutionModel): (r: Result<SingleShaderStage, ReflectionError>)
    ensures r == Ok(Vertex) <==> model.ExecutionModelVertex?
    ensures r == Ok(Fragment) <==> model.ExecutionModelFragment?
    ensures r == Ok(Compute) <==> model.ExecutionModelGLCompute?
    ensures r.Err? ==> r.error == UnexpectedExecutionModel
  {
    match model
    case ExecutionModelVertex => Ok(Vertex)
    case ExecutionModelFragment => Ok(Fragment)
    case ExecutionModelGLCompute => Ok(Compute)
    case _ => Err(UnexpectedExecutionModel)
  }

  // ---------------------------------------------------------------------------------
  // One resource

  predicate Decorated(r: Resource)
  {
    r.binding.Some? && r.descriptorSet.Some?
  }

  function KeyOf(r: Resource): BindingKey
    requires Decorated(r)
  {
    BindingKey(r.descriptorSet.value, r.binding.value)
  }

  /** The storage format of a storage image is accepted: it has a WebGPU counterpart
      and the device can use that format for storage. */
  predicate StorageFormatAccepted(r: Resource, supportsStorage: TextureFormat -> bool)
  {
    ToWGPUTextureFormat(r.image.format) != Undefined && supportsStorage(ToWGPUTextureFormat(r.image.format))
  }

  /** The access of a storage image: a NonReadable image is write-only, otherwise a
      NonWritable one is read-only, otherwise it is read-write. */
  function StorageTextureAccess(r: Resource): (t: BindingType)
    ensures t.WriteonlyStorageTexture? <==> r.nonReadable
    ensures t.ReadonlyStorageTexture? <==> !r.nonReadable && r.nonWritable
    ensures t.StorageTexture? <==> !r.nonReadable && !r.nonWritable
  {
    if r.nonReadable then WriteonlyStorageTexture
    else if r.nonWritable then ReadonlyStorageTexture
    else StorageTexture
  }

  /** The binding record of one declared resource. Buffers record their declared size;
      storage buffers are read-only exactly when their block is NonWritable; sampled
      images record their view dimension, multisampling and component type; storage
      images record their access, view dimension and format, and fail when the format
      has no WebGPU counterpart or cannot be used for storage. Every other kind is
      recorded as is. */
  function ResourceInfo(d: Declaration, supportsStorage: TextureFormat -> bool): (r: Result<ShaderBindingInfo, ReflectionError>)
    ensures r.Ok? <==> !d.kind.StorageTexture? || StorageFormatAccepted(d.resource, supportsStorage)
    ensures r.Err? ==> r.error == (if ToWGPUTextureFormat(d.resource.image.format) == Undefined
                                  then InvalidStorageImageFormat else UnsupportedStorageFormat)
    ensures r.Ok? ==> r.value.minBufferBindingSize == (if d.kind.IsBuffer() then d.resource.declaredSize else 0)
    ensures r.Ok? && d.kind.StorageBuffer? ==>
              r.value.bindingType == (if d.resource.blockNonWritable then ReadonlyStorageBuffer else StorageBuffer)
    ensures r.Ok? && d.kind.StorageTexture? ==>
              && r.value.bindingType == StorageTextureAccess(d.resource)
              && r.value.storageTextureFormat == ToWGPUTextureFormat(d.resource.image.format)
              && r.value.multisampled == d.resource.image.ms
              && r.value.viewDimension == SpirvDimToTextureViewDimension(d.resource.image.dim, d.resource.image.arrayed)
    ensures r.Ok? && d.kind.SampledTexture? ==>
              && r.value.bindingType == SampledTexture
              && r.value.multisampled == d.resource.image.ms
              && r.value.viewDimension == SpirvDimToTextureViewDimension(d.resource.image.dim, d.resource.image.arrayed)
              && r.value.textureComponentType == SpirvBaseTypeToFormatType(d.resource.image.componentType)
    ensures r.Ok? && !d.kind.StorageBuffer? && !d.kind.StorageTexture? ==> r.value.bindingType == d.kind
    ensures r.Ok? && !d.kind.IsSizedStorageTexture() ==> StorageFormatDefined(r.value)
  {
    var image := d.resource.image;
    var info := DefaultBindingInfo(d.kind).(
      minBufferBindingSize := if d.kind.IsBuffer() then d.resource.declaredSize else 0);
    match d.kind
    case SampledTexture =>
      Ok(info.(
        multisampled := image.ms,
        viewDimension := SpirvDimToTextureViewDimension(image.dim, image.arrayed),
        textureComponentType := SpirvBaseTypeToFormatType(image.componentType)))
    case StorageBuffer =>
      Ok(info.(bindingType := if d.resource.blockNonWritable then ReadonlyStorageBuffer else StorageBuffer))
    case StorageTexture =>
      var format := ToWGPUTextureFormat(image.format);
      if format == Undefined then Err(InvalidStorageImageFormat)
      else if !supportsStorage(format) then Err(UnsupportedStorageFormat)
      else
        Ok(info.(
          bindingType := StorageTextureAccess(d.resource),
          multisampled := image.ms,
          storageTextureFormat := format,
          viewDimension := SpirvDimToTextureViewDimension(image.dim, image.arrayed)))
    case _ => Ok(info)
  }

  /** Records one declared resource in the bindings: it must carry both decorations, name
      a bind group below the limit and a key not yet declared. */
  function AddDeclaration(d: Declaration, supportsStorage: TextureFormat -> bool, b: ModuleBindingInfo)
    : (r: Result<ModuleBindingInfo, ReflectionError>)
    ensures r.Ok? <==>
              && Decorated(d.resource)
              && KeyOf(d.resource).group < kMaxBindGroups
              && KeyOf(d.resource).binding !in b[KeyOf(d.resource).group]
              && ResourceInfo(d, supportsStorage).Ok?
    ensures d.resource.binding.None? ==> r == Err(MissingBindingDecoration)
    ensures d.resource.binding.Some? && d.resource.descriptorSet.None? ==> r == Err(MissingDescriptorSetDecoration)
    ensures Decorated(d.resource) && KeyOf(d.resource).group >= kMaxBindGroups ==> r == Err(BindGroupIndexOverLimit)
    ensures (Decorated(d.resource) && KeyOf(d.resource).group < kMaxBindGroups
             && KeyOf(d.resource).binding in b[KeyOf(d.resource).group]) ==> r == Err(DuplicateBinding)
    ensures r.Ok? ==> Records(r.value, d, supportsStorage) && Extends(r.value, b)
    ensures r.Ok? ==> forall g, n :: 0 <= g < kMaxBindGroups && n in r.value[g] ==>
                        n in b[g] || BindingKey(g, n) == KeyOf(d.resource)
  {
    if d.resource.binding.None? then Err(MissingBindingDecoration)
    else if d.resource.descriptorSet.None? then Err(MissingDescriptorSetDecoration)
    else
      var key := KeyOf(d.resource);
      if key.group >= kMaxBindGroups then Err(BindGroupIndexOverLimit)
      else if key.binding in b[key.group] then Err(DuplicateBinding)
      else
        var info :- ResourceInfo(d, supportsStorage);
        var bindings: GroupBindings := b[key.group][key.binding := info];
        Ok(b[key.group := bindings])
  }

  // ---------------------------------------------------------------------------------
  // Resource lists

  /** The resources of one list, each tagged with the list's binding kind. */
  function Tag(rs: seq<Resource>, kind: BindingType): (ds: seq<Declaration>)
    ensures |ds| == |rs|
    ensures forall i :: 0 <= i < |rs| ==> ds[i] == Declaration(rs[i], kind)
  {
    if |rs| == 0 then [] else [Declaration(rs[0], kind)] + Tag(rs[1..], kind)
  }

  /** Declarations are accepted on top of the bindings `b` when each one carries both
      decorations, names a bind group below the limit and a key absent from `b`, builds
      its record, and no two of them share a key. */
  predicate DeclarationsAccepted(ds: seq<Declaration>, supportsStorage: TextureFormat -> bool, b: ModuleBindingInfo)
  {
    && (forall i :: 0 <= i < |ds| ==>
          && Decorated(ds[i].resource)
          && KeyOf(ds[i].resource).group < kMaxBindGroups
          && KeyOf(ds[i].resource).binding !in b[KeyOf(ds[i].resource).group]
          && ResourceInfo(ds[i], supportsStorage).Ok?)
    && (forall i, j :: 0 <= i < j < |ds| ==> KeyOf(ds[i].resource) != KeyOf(ds[j].resource))
  }

  /** `m` keeps every binding of `b` unchanged. */
  predicate Extends(m: ModuleBindingInfo, b: ModuleBindingInfo)
  {
    forall g, n :: 0 <= g < kMaxBindGroups && n in b[g] ==> n in m[g] && m[g][n] == b[g][n]
  }

  /** `m` holds the record of declaration `d` at the key `d` declares. */
  predicate Records(m: ModuleBindingInfo, d: Declaration, supportsStorage: TextureFormat -> bool)
  {
    && Decorated(d.resource)
    && KeyOf(d.resource).group < kMaxBindGroups
    && ResourceInfo(d, supportsStorage).Ok?
    && KeyOf(d.resource).binding in m[KeyOf(d.resource).group]
    && m[KeyOf(d.resource).group][KeyOf(d.resource).binding] == ResourceInfo(d, supportsStorage).value
  }

  /** Some declaration of `ds` is made at `key`. */
  predicate Declares(ds: seq<Declaration>, key: BindingKey)
  {
    exists i :: 0 <= i < |ds| && Decorated(ds[i].resource) && KeyOf(ds[i].resource) == key
  }

  /** Records declarations one after the other, stopping at the first error. */
  function AddDeclarations(ds: seq<Declaration>, supportsStorage: TextureFormat -> bool, b: ModuleBindingInfo)
    : Result<ModuleBindingInfo, ReflectionError>
    decreases |ds|
  {
    if |ds| == 0 then Ok(b)
    else
      var b1 :- AddDeclaration(ds[0], supportsStorage, b);
      AddDeclarations(ds[1..], supportsStorage, b1)
  }

  /** The declarations are recorded exactly when they are accepted: whatever the order,
      a missing decoration, a bind group over the limit, a repeated or already used key
      or a rejected storage format makes the whole list fail. */
  lemma {:induction false} AddDeclarationsAccepted(ds: seq<Declaration>, supportsStorage: TextureFormat -> bool,
                                                   b: ModuleBindingInfo)
    ensures AddDeclarations(ds, supportsStorage, b).Ok? <==> DeclarationsAccepted(ds, supportsStorage, b)
    decreases |ds|
  {
    if |ds| > 0 {
      var r1 := AddDeclaration(ds[0], supportsStorage, b);
      if r1.Ok? {
        AddDeclarationsAccepted(ds[1..], supportsStorage, r1.value);
      }
    }
  }

  /** On success every binding already present is kept unchanged. */
  lemma {:induction false} AddDeclarationsExtends(ds: seq<Declaration>, supportsStorage: TextureFormat -> bool,
                                                  b: ModuleBindingInfo)
    ensures AddDeclarations(ds, supportsStorage, b).Ok? ==> Extends(AddDeclarations(ds, supportsStorage, b).value, b)
    decreases |ds|
  {
    if |ds| > 0 {
      var r1 := AddDeclaration(ds[0], supportsStorage, b);
      if r1.Ok? {
        AddDeclarationsExtends(ds[1..], supportsStorage, r1.value);
      }
    }
  }

  /** On success every declaration's record is held at its key. */
  lemma {:induction false} AddDeclarationsRecords(ds: seq<Declaration>, supportsStorage: TextureFormat -> bool,
                                                  b: ModuleBindingInfo)
    ensures AddDeclarations(ds, supportsStorage, b).Ok? ==>
              forall i :: 0 <= i < |ds| ==> Records(AddDeclarations(ds, supportsStorage, b).value, ds[i], supportsStorage)
    decreases |ds|
  {
    if |ds| > 0 {
      var r1 := AddDeclaration(ds[0], supportsStorage, b);
      if r1.Ok? {
        AddDeclarationsRecords(ds[1..], supportsStorage, r1.value);
        AddDeclarationsExtends(ds[1..], supportsStorage, r1.value);
      }
    }
  }

  /** On success every binding held was already present or is declared in the list. */
  lemma {:induction false} AddDeclarationsOnlyDeclared(ds: seq<Declaration>, supportsStorage: TextureFormat -> bool,
                                                       b: ModuleBindingInfo)
    ensures AddDeclarations(ds, supportsStorage, b).Ok? ==>
              forall g, n :: 0 <= g < kMaxBindGroups && n in AddDeclarations(ds, supportsStorage, b).value[g] ==>
                n in b[g] || Declares(ds, BindingKey(g, n))
    decreases |ds|
  {
    if |ds| > 0 {
      var r1 := AddDeclaration(ds[0], supportsStorage, b);
      if r1.Ok? {
        AddDeclarationsOnlyDeclared(ds[1..], supportsStorage, r1.value);
      }
    }
  }

  /** The loop of ExtractResourcesBinding over one list of resources of one kind. */
  function ExtractResourcesBinding(rs: seq<Resource>, kind: BindingType, supportsStorage: TextureFormat -> bool,
                                   b: ModuleBindingInfo): (r: Result<ModuleBindingInfo, ReflectionError>)
    ensures r.Ok? <==> DeclarationsAccepted(Tag(rs, kind), supportsStorage, b)
  {
    var ds := Tag(rs, kind);
    AddDeclarationsAccepted(ds, supportsStorage, b);
    AddDeclarations(ds, supportsStorage, b)
  }

  /** Recording two lists in a row is recording their concatenation. */
  lemma {:induction false} AddDeclarationsConcat(a: seq<Declaration>, c: seq<Declaration>,
                                                 supportsStorage: TextureFormat -> bool, b: ModuleBindingInfo)
    ensures AddDeclarations(a + c, supportsStorage, b) ==
              match AddDeclarations(a, supportsStorage, b)
              case Ok(b1) => AddDeclarations(c, supportsStorage, b1)
              case Err(e) => Err(e)
    decreases |a|
  {
    if |a| > 0 {
      assert (a + c)[0] == a[0];
      assert (a + c)[1..] == a[1..] + c;
      var r1 := AddDeclaration(a[0], supportsStorage, b);
      if r1.Ok? {
        AddDeclarationsConcat(a[1..], c, supportsStorage, r1.value);
      }
    } else {
      assert a + c == c;
    }
  }

  /** The declarations of a module, list by list in the order they are recorded. */
  function Declarations(res: ShaderResources): seq<Declaration>
  {
    Tag(res.uniformBuffers, UniformBuffer)
    + Tag(res.separateImages, SampledTexture)
    + Tag(res.separateSamplers, Sampler)
    + Tag(res.storageBuffers, StorageBuffer)
    + Tag(res.storageImages, StorageTexture)
  }

  /** A resource of a list is declared with the list's kind. */
  lemma TagMember(rs: seq<Resource>, kind: BindingType, r: Resource)
    requires r in rs
    ensures Declaration(r, kind) in Tag(rs, kind)
  {
    var i :| 0 <= i < |rs| && rs[i] == r;
    assert Tag(rs, kind)[i] == Declaration(r, kind);
  }

  // ---------------------------------------------------------------------------------
  // Stage inputs and outputs

  /** The locations of the stage variables that carry one. */
  function Locations(vs: seq<StageVariable>): set<nat>
  {
    set v | v in vs && v.location.Some? :: v.location.value
  }

  predicate AllLocated(vs: seq<StageVariable>)
  {
    forall v :: v in vs ==> v.location.Some?
  }

  /** A vertex input is accepted when it has a location below the attribute limit. */
  predicate InputAccepted(v: StageVariable)
  {
    v.location.Some? && v.location.value < kMaxVertexAttributes
  }

  /** The vertex attributes read by the vertex inputs. Every input needs a location below
      the attribute limit; the attributes are then exactly the input locations. */
  function VertexAttributes(inputs: seq<StageVariable>): (r: Result<set<nat>, ReflectionError>)
    ensures r.Ok? <==> forall v :: v in inputs ==> InputAccepted(v)
    ensures r.Ok? ==> r.value == Locations(inputs)
    ensures r.Err? ==> r.error == MissingVertexInputLocation || r.error == VertexAttributeOverLimit
    decreases |inputs|
  {
    if |inputs| == 0 then Ok({})
    else if !InputAccepted(inputs[0]) then
      assert inputs[0] in inputs;
      Err(if inputs[0].location.None? then MissingVertexInputLocation else VertexAttributeOverLimit)
    else
      var rest :- VertexAttributes(inputs[1..]);
      assert inputs == [inputs[0]] + inputs[1..];
      Ok({inputs[0].location.value} + rest)
  }

  /** The first rejected vertex input decides the error: a missing location, or else a
      location over the attribute limit. */
  lemma {:induction false} VertexAttributesError(inputs: seq<StageVariable>, i: nat)
    requires i < |inputs| && !InputAccepted(inputs[i])
    requires forall j :: 0 <= j < i ==> InputAccepted(inputs[j])
    ensures VertexAttributes(inputs) ==
              Err(if inputs[i].location.None? then MissingVertexInputLocation else VertexAttributeOverLimit)
    decreases i
  {
    if i > 0 {
      assert InputAccepted(inputs[0]);
      VertexAttributesError(inputs[1..], i - 1);
    }
  }

  /** A fragment output is accepted when it has a location below the color attachment
      limit and a float, signed or unsigned integer base type. */
  predicate OutputAccepted(v: StageVariable)
  {
    v.location.Some? && v.location.value < kMaxColorAttachments && SpirvBaseTypeToFormatType(v.baseType) != Other
  }

  /** The error a rejected fragment output raises: a missing location, then a location
      over the limit, then a base type with no format type. */
  function OutputError(v: StageVariable): ReflectionError
  {
    if v.location.None? then MissingFragmentOutputLocation
    else if v.location.value >= kMaxColorAttachments then FragmentOutputOverLimit
    else UnexpectedFragmentOutputType
  }

  /** Writes the base type of every fragment output at its location, in order. Every
      output must be accepted; a location no output names keeps its previous type, and
      a location takes the type of the last output naming it. */
  function FragmentOutputs(outputs: seq<StageVariable>, types: FragmentOutputBaseTypes)
    : (r: Result<FragmentOutputBaseTypes, ReflectionError>)
    ensures r.Ok? <==> forall v :: v in outputs ==> OutputAccepted(v)
    ensures r.Ok? ==> forall l :: 0 <= l < kMaxColorAttachments && (forall v :: v in outputs ==> v.location != Some(l)) ==>
                        r.value[l] == types[l]
    ensures r.Ok? ==> forall i :: 0 <= i < |outputs| && OutputAccepted(outputs[i])
                        && (forall j :: i < j < |outputs| ==> outputs[j].location != outputs[i].location)
                        ==> r.value[outputs[i].location.value] == SpirvBaseTypeToFormatType(outputs[i].baseType)
    ensures r.Err? ==> r.error in {MissingFragmentOutputLocation, FragmentOutputOverLimit, UnexpectedFragmentOutputType}
    decreases |outputs|
  {
    if |outputs| == 0 then Ok(types)
    else
      var v := outputs[0];
      if !OutputAccepted(v) then
        if v.location.None? then Err(MissingFragmentOutputLocation)
        else if v.location.value >= kMaxColorAttachments then Err(FragmentOutputOverLimit)
        else Err(UnexpectedFragmentOutputType)
      else
        FragmentOutputs(outputs[1..], types[v.location.value := SpirvBaseTypeToFormatType(v.baseType)])
  }

  /** The first rejected fragment output decides the error, whatever the types written
      before it. */
  lemma {:induction false} FragmentOutputsError(outputs: seq<StageVariable>, types: FragmentOutputBaseTypes, i: nat)
    requires i < |outputs| && !OutputAccepted(outputs[i])
    requires forall j :: 0 <= j < i ==> OutputAccepted(outputs[j])
    ensures FragmentOutputs(outputs, types) == Err(OutputError(outputs[i]))
    decreases i
  {
    if i > 0 {
      var v := outputs[0];
      assert OutputAccepted(v);
      FragmentOutputsError(outputs[1..], types[v.location.value := SpirvBaseTypeToFormatType(v.baseType)], i - 1);
    }
  }

  /** The stage-variable rules: a vertex shader's inputs all carry a location below the
      attribute limit and its outputs all carry one; a fragment shader's inputs all
      carry a location and its outputs are all accepted. A compute shader has none. */
  predicate StageVariablesAccepted(stage: SingleShaderStage, res: ShaderResources)
  {
    && (stage == Vertex ==>
          && (forall v :: v in res.stageInputs ==> InputAccepted(v))
          && AllLocated(res.stageOutputs))
    && (stage == Fragment ==>
          && AllLocated(res.stageInputs)
          && (forall v :: v in res.stageOutputs ==> OutputAccepted(v)))
  }

  /** The last part of reflection, once the bindings are recorded: the vertex inputs
      and outputs of a vertex shader, then the fragment inputs and outputs of a fragment
      shader. It succeeds exactly when the stage variables follow their rules; a vertex
      shader then uses exactly the locations of its inputs as attributes, and a fragment
      shader's output types are written over "no output" at their locations. The error
      is the first one met in that order: a vertex input's, then a vertex output without
      a location, then a fragment input without a location, then a fragment output's. */
  function StageVariables(stage: SingleShaderStage, res: ShaderResources, bindings: ModuleBindingInfo)
    : (r: Result<EntryPointMetadata, ReflectionError>)
    ensures r.Ok? <==> StageVariablesAccepted(stage, res)
    ensures r.Ok? ==> r.value.stage == stage && r.value.bindings == bindings
    ensures r.Ok? ==> r.value.usedVertexAttributes == (if stage == Vertex then Locations(res.stageInputs) else {})
    ensures r.Ok? && stage == Fragment ==>
              Ok(r.value.fragmentOutputFormatBaseTypes) ==
                FragmentOutputs(res.stageOutputs, EmptyMetadata(stage).fragmentOutputFormatBaseTypes)
    ensures r.Ok? && stage != Fragment ==>
              r.value.fragmentOutputFormatBaseTypes == EmptyMetadata(stage).fragmentOutputFormatBaseTypes
    ensures stage == Vertex && VertexAttributes(res.stageInputs).Err? ==>
              r == Err(VertexAttributes(res.stageInputs).error)
    ensures r == Err(MissingVertexOutputLocation) <==>
              stage == Vertex && (forall v :: v in res.stageInputs ==> InputAccepted(v)) && !AllLocated(res.stageOutputs)
    ensures r == Err(MissingFragmentInputLocation) <==> stage == Fragment && !AllLocated(res.stageInputs)
    ensures stage == Fragment && AllLocated(res.stageInputs)
              && FragmentOutputs(res.stageOutputs, EmptyMetadata(stage).fragmentOutputFormatBaseTypes).Err? ==>
              r == Err(FragmentOutputs(res.stageOutputs, EmptyMetadata(stage).fragmentOutputFormatBaseTypes).error)
  {
    var m := EmptyMetadata(stage);
    var attributes :- if stage == Vertex then VertexAttributes(res.stageInputs) else Ok(m.usedVertexAttributes);
    if stage == Vertex && !AllLocated(res.stageOutputs) then Err(MissingVertexOutputLocation)
    else if stage == Fragment && !AllLocated(res.stageInputs) then Err(MissingFragmentInputLocation)
    else
      var outputs :- if stage == Fragment then FragmentOutputs(res.stageOutputs, m.fragmentOutputFormatBaseTypes)
                     else Ok(m.fragmentOutputFormatBaseTypes);
      Ok(m.(bindings := bindings, usedVertexAttributes := attributes, fragmentOutputFormatBaseTypes := outputs))
  }

  // ---------------------------------------------------------------------------------
  // Entry point

  /** The entry point's metadata as ExtractSpirvInfoWithSpirvCross computes it:
      the stage, then the rejection of push constants and combined image samplers, the
      five resource lists, the vertex inputs and outputs of a vertex shader and the
      fragment inputs and outputs of a fragment shader. */
  function ExtractSpirvInfoWithSpirvCross(model: ExecutionModel, res: ShaderResources,
                                          supportsStorage: TextureFormat -> bool)
    : (r: Result<EntryPointMetadata, ReflectionError>)
    ensures r.Ok? ==> StageOf(model) == Ok(r.value.stage)
    ensures r.Ok? ==> res.pushConstantBuffers == 0 && res.sampledImages == 0
    ensures r.Ok? && r.value.stage != Vertex ==> r.value.usedVertexAttributes == {}
    ensures r.Ok? && r.value.stage != Fragment ==> r.value.fragmentOutputFormatBaseTypes == kNoFragmentOutputs
  {
    var stage :- StageOf(model);
    if res.pushConstantBuffers > 0 then Err(PushConstantsUnsupported)
    else if res.sampledImages > 0 then Err(CombinedImageSamplersUnsupported)
    else
      var b1 :- ExtractResourcesBinding(res.uniformBuffers, UniformBuffer, supportsStorage, kNoBindings);
      var b2 :- ExtractResourcesBinding(res.separateImages, SampledTexture, supportsStorage, b1);
      var b3 :- ExtractResourcesBinding(res.separateSamplers, Sampler, supportsStorage, b2);
      var b4 :- ExtractResourcesBinding(res.storageBuffers, StorageBuffer, supportsStorage, b3);
      var b5 :- ExtractResourcesBinding(res.storageImages, StorageTexture, supportsStorage, b4);
      StageVariables(stage, res, b5)
  }

  /** Records the five lists in order from no bindings, as reflection does. */
  lemma FiveListsInOrder(res: ShaderResources, supportsStorage: TextureFormat -> bool)
    ensures AddDeclarations(Declarations(res), supportsStorage, kNoBindings) ==
              var b1 :- ExtractResourcesBinding(res.uniformBuffers, UniformBuffer, supportsStorage, kNoBindings);
              var b2 :- ExtractResourcesBinding(res.separateImages, SampledTexture, supportsStorage, b1);
              var b3 :- ExtractResourcesBinding(res.separateSamplers, Sampler, supportsStorage, b2);
              var b4 :- ExtractResourcesBinding(res.storageBuffers, StorageBuffer, supportsStorage, b3);
              ExtractResourcesBinding(res.storageImages, StorageTexture, supportsStorage, b4)
  {
    var u := Tag(res.uniformBuffers, UniformBuffer);
    var i := Tag(res.separateImages, SampledTexture);
    var sa := Tag(res.separateSamplers, Sampler);
    var sb := Tag(res.storageBuffers, StorageBuffer);
    var st := Tag(res.storageImages, StorageTexture);
    AddDeclarationsConcat(u + i + sa + sb, st, supportsStorage, kNoBindings);
    AddDeclarationsConcat(u + i + sa, sb, supportsStorage, kNoBindings);
    AddDeclarationsConcat(u + i, sa, supportsStorage, kNoBindings);
    AddDeclarationsConcat(u, i, supportsStorage, kNoBindings);
  }

  /** Once the stage and the two unsupported resource counts pass, the bindings are those
      of the five lists recorded in order from no bindings: an error while recording them
      is the error of the whole reflection, and otherwise the stage variables decide. */
  lemma ExtractedBindings(model: ExecutionModel, res: ShaderResources, supportsStorage: TextureFormat -> bool)
    ensures var r := ExtractSpirvInfoWithSpirvCross(model, res, supportsStorage);
            var all := AddDeclarations(Declarations(res), supportsStorage, kNoBindings);
            r == if StageOf(model).Err? then Err(StageOf(model).error)
                 else if res.pushConstantBuffers > 0 then Err(PushConstantsUnsupported)
                 else if res.sampledImages > 0 then Err(CombinedImageSamplersUnsupported)
                 else if all.Err? then Err(all.error)
                 else StageVariables(StageOf(model).value, res, all.value)
  {
    FiveListsInOrder(res, supportsStorage);
  }

  /** Reflection succeeds exactly when the execution model is a WebGPU stage, there are
      no push constants and no combined image samplers, the declared resources are
      accepted (decorated, in a bind group below the limit, with pairwise-distinct keys,
      with accepted storage formats) and the stage variables follow their rules. */
  lemma ExtractSpirvInfoAccepted(model: ExecutionModel, res: ShaderResources, supportsStorage: TextureFormat -> bool)
    ensures ExtractSpirvInfoWithSpirvCross(model, res, supportsStorage).Ok? <==>
              && StageOf(model).Ok?
              && res.pushConstantBuffers == 0
              && res.sampledImages == 0
              && DeclarationsAccepted(Declarations(res), supportsStorage, kNoBindings)
              && StageVariablesAccepted(StageOf(model).value, res)
  {
    ExtractedBindings(model, res, supportsStorage);
    AddDeclarationsAccepted(Declarations(res), supportsStorage, kNoBindings);
  }

  /** Two resources that declare the same key, in the same list or in two different
      lists, make reflection fail. */
  lemma DuplicateBindingRejected(model: ExecutionModel, res: ShaderResources, supportsStorage: TextureFormat -> bool,
                                 i: nat, j: nat)
    requires i < j < |Declarations(res)|
    requires Decorated(Declarations(res)[i].resource) && Decorated(Declarations(res)[j].resource)
    requires KeyOf(Declarations(res)[i].resource) == KeyOf(Declarations(res)[j].resource)
    ensures ExtractSpirvInfoWithSpirvCross(model, res, supportsStorage).Err?
  {
    ExtractSpirvInfoAccepted(model, res, supportsStorage);
  }

  /** On success every declared resource is recorded at its key. */
  lemma ExtractedBindingsRecorded(model: ExecutionModel, res: ShaderResources, supportsStorage: TextureFormat -> bool)
    ensures var r := ExtractSpirvInfoWithSpirvCross(model, res, supportsStorage);
            r.Ok? ==> forall d :: d in Declarations(res) ==> Records(r.value.bindings, d, supportsStorage)
  {
    ExtractedBindings(model, res, supportsStorage);
    AddDeclarationsRecords(Declarations(res), supportsStorage, kNoBindings);
  }

  /** On success every recorded key is declared by some resource. */
  lemma ExtractedBindingsDeclared(model: ExecutionModel, res: ShaderResources, supportsStorage: TextureFormat -> bool)
    ensures var r := ExtractSpirvInfoWithSpirvCross(model, res, supportsStorage);
            r.Ok? ==> forall g, n :: 0 <= g < kMaxBindGroups && n in r.value.bindings[g] ==>
                        Declares(Declarations(res), BindingKey(g, n))
  {
    ExtractedBindings(model, res, supportsStorage);
    AddDeclarationsOnlyDeclared(Declarations(res), supportsStorage, kNoBindings);
  }

  /** Every declaration made by the five lists has one of their five kinds. */
  lemma DeclarationKinds(res: ShaderResources, d: Declaration)
    requires d in Declarations(res)
    ensures d.kind in {UniformBuffer, SampledTexture, Sampler, StorageBuffer, StorageTexture}
  {
  }

  /** On success a storage buffer is recorded as read-only exactly when its block is
      NonWritable, with its declared size as minimum binding size. */
  lemma StorageBuffersClassified(model: ExecutionModel, res: ShaderResources, supportsStorage: TextureFormat -> bool)
    ensures var r := ExtractSpirvInfoWithSpirvCross(model, res, supportsStorage);
            r.Ok? ==> forall sb :: sb in res.storageBuffers ==>
              && Decorated(sb)
              && var key := KeyOf(sb);
              && key.group < kMaxBindGroups
              && key.binding in r.value.bindings[key.group]
              && r.value.bindings[key.group][key.binding].bindingType ==
                   (if sb.blockNonWritable then ReadonlyStorageBuffer else StorageBuffer)
              && r.value.bindings[key.group][key.binding].minBufferBindingSize == sb.declaredSize
  {
    var r := ExtractSpirvInfoWithSpirvCross(model, res, supportsStorage);
    if r.Ok? {
      ExtractedBindingsRecorded(model, res, supportsStorage);
      forall sb | sb in res.storageBuffers
        ensures Records(r.value.bindings, Declaration(sb, StorageBuffer), supportsStorage)
      {
        TagMember(res.storageBuffers, StorageBuffer, sb);
      }
    }
  }

  /** On success a storage image has an accepted format and is recorded with the access
      its NonReadable and NonWritable decorations give and with its WebGPU format. */
  lemma StorageImagesClassified(model: ExecutionModel, res: ShaderResources, supportsStorage: TextureFormat -> bool)
    ensures var r := ExtractSpirvInfoWithSpirvCross(model, res, supportsStorage);
            r.Ok? ==> forall si :: si in res.storageImages ==>
              && Decorated(si)
              && StorageFormatAccepted(si, supportsStorage)
              && var key := KeyOf(si);
              && key.group < kMaxBindGroups
              && key.binding in r.value.bindings[key.group]
              && r.value.bindings[key.group][key.binding].bindingType == StorageTextureAccess(si)
              && r.value.bindings[key.group][key.binding].storageTextureFormat == ToWGPUTextureFormat(si.image.format)
  {
    var r := ExtractSpirvInfoWithSpirvCross(model, res, supportsStorage);
    if r.Ok? {
      ExtractedBindingsRecorded(model, res, supportsStorage);
      forall si | si in res.storageImages
        ensures Records(r.value.bindings, Declaration(si, StorageTexture), supportsStorage)
      {
        TagMember(res.storageImages, StorageTexture, si);
      }
    }
  }

  /** Recording one declaration that is not a read-only or write-only storage texture
      keeps every storage-texture record naming a defined format. */
  lemma AddDeclarationFormatsDefined(d: Declaration, supportsStorage: TextureFormat -> bool, b: ModuleBindingInfo)
    requires !d.kind.IsSizedStorageTexture()
    requires BindingFormatsDefined(b)
    ensures var r := AddDeclaration(d, supportsStorage, b);
            r.Ok? ==> BindingFormatsDefined(r.value)
  {
    var r := AddDeclaration(d, supportsStorage, b);
    if r.Ok? {
      var key := KeyOf(d.resource);
      assert StorageFormatDefined(ResourceInfo(d, supportsStorage).value);
      forall g, n | 0 <= g < kMaxBindGroups && n in r.value[g]
        ensures StorageFormatDefined(r.value[g][n])
      {
        if g == key.group && n == key.binding {
        } else {
          assert r.value[g][n] == b[g][n];
        }
      }
    }
  }

  /** Recording declarations none of which is a read-only or write-only storage texture
      keeps every storage-texture record naming a defined format. */
  lemma {:induction false} AddDeclarationsFormatsDefined(ds: seq<Declaration>, supportsStorage: TextureFormat -> bool,
                                                         b: ModuleBindingInfo)
    requires forall d :: d in ds ==> !d.kind.IsSizedStorageTexture()
    requires BindingFormatsDefined(b)
    ensures var all := AddDeclarations(ds, supportsStorage, b);
            all.Ok? ==> BindingFormatsDefined(all.value)
    decreases |ds|
  {
    if |ds| > 0 {
      var r1 := AddDeclaration(ds[0], supportsStorage, b);
      if r1.Ok? {
        AddDeclarationFormatsDefined(ds[0], supportsStorage, b);
        assert forall d :: d in ds[1..] ==> d in ds;
        AddDeclarationsFormatsDefined(ds[1..], supportsStorage, r1.value);
      }
    }
  }

  /** Every record the five lists produce from no bindings names a defined format when
      it is a storage-texture binding. */
  lemma RecordedFormatsDefined(res: ShaderResources, supportsStorage: TextureFormat -> bool)
    ensures var all := AddDeclarations(Declarations(res), supportsStorage, kNoBindings);
            all.Ok? ==> BindingFormatsDefined(all.value)
  {
    forall d | d in Declarations(res)
      ensures !d.kind.IsSizedStorageTexture()
    {
      DeclarationKinds(res, d);
    }
    AddDeclarationsFormatsDefined(Declarations(res), supportsStorage, kNoBindings);
  }

  /** Reflected metadata is well formed: every storage-texture binding names a defined
      format and every vertex attribute is below the attribute limit. */
  lemma ExtractedWellFormed(model: ExecutionModel, res: ShaderResources, supportsStorage: TextureFormat -> bool)
    ensures var r := ExtractSpirvInfoWithSpirvCross(model, res, supportsStorage);
            r.Ok? ==> WellFormed(r.value)
  {
    ExtractedBindings(model, res, supportsStorage);
    RecordedFormatsDefined(res, supportsStorage);
  }

  /** On success a vertex shader uses exactly the locations of its inputs as vertex
      attributes. */
  lemma ExtractedVertexAttributes(model: ExecutionModel, res: ShaderResources, supportsStorage: TextureFormat -> bool)
    ensures var r := ExtractSpirvInfoWithSpirvCross(model, res, supportsStorage);
            r.Ok? && r.value.stage == Vertex ==> r.value.usedVertexAttributes == Locations(res.stageInputs)
  {
    ExtractedBindings(model, res, supportsStorage);
  }

  /** Written over "no output", a location no fragment output names stays `Other`. */
  lemma FragmentOutputsUnwritten(outputs: seq<StageVariable>)
    ensures var r := FragmentOutputs(outputs, kNoFragmentOutputs);
            r.Ok? ==> forall l :: 0 <= l < kMaxColorAttachments && (forall v :: v in outputs ==> v.location != Some(l)) ==>
                        r.value[l] == Other
  {
    var r := FragmentOutputs(outputs, kNoFragmentOutputs);
    if r.Ok? {
      forall l | 0 <= l < kMaxColorAttachments
        ensures kNoFragmentOutputs[l] == Other
      {
      }
    }
  }

  /** Written over "no output", every fragment output has a location below the color
      attachment limit, and the location holds the base type of the last output naming it. */
  lemma FragmentOutputsLastWrite(outputs: seq<StageVariable>)
    ensures var r := FragmentOutputs(outputs, kNoFragmentOutputs);
            r.Ok? ==> forall i :: 0 <= i < |outputs| &&
                        (forall j :: i < j < |outputs| ==> outputs[j].location != outputs[i].location)
                        ==> && outputs[i].location.Some?
                            && outputs[i].location.value < kMaxColorAttachments
                            && r.value[outputs[i].location.value] == SpirvBaseTypeToFormatType(outputs[i].baseType)
  {
    var r := FragmentOutputs(outputs, kNoFragmentOutputs);
    if r.Ok? {
      forall i | 0 <= i < |outputs|
        ensures OutputAccepted(outputs[i])
      {
        assert outputs[i] in outputs;
      }
    }
  }

  /** On success a fragment shader's output types are those its outputs write over
      "no output" (see FragmentOutputsUnwritten and FragmentOutputsLastWrite). */
  lemma ExtractedFragmentOutputs(model: ExecutionModel, res: ShaderResources, supportsStorage: TextureFormat -> bool)
    ensures var r := ExtractSpirvInfoWithSpirvCross(model, res, supportsStorage);
            r.Ok? && r.value.stage == Fragment ==>
              FragmentOutputs(res.stageOutputs, kNoFragmentOutputs) == Ok(r.value.fragmentOutputFormatBaseTypes)
  {
    ExtractedBindings(model, res, supportsStorage);
  }
}

=== FILE: shader_module.dfy ===
/** The shader-module object around the reflection core: validation of the descriptor
    chain, construction from an accepted descriptor, and the content identity (hash and
    equality over the SPIR-V words) the device cache deduplicates modules by. */
module ShaderModule {
  import opened Wrappers

  /** A SPIR-V word. */
  newtype uint32 = x: int | 0 <= x < 0x1_0000_0000

  /** A `size_t` hash value. */
  newtype uint64 = x: int | 0 <= x < 0x1_0000_0000_0000_0000

  /** wgpu::SType, reduced to the two shader-module descriptors and any other value. */
  datatype SType = ShaderModuleSPIRVDescriptor | ShaderModuleWGSLDescriptor | OtherSType(value: nat)

  /** One chained struct: its sType and the payload of the descriptor it is cast to
      (the SPIR-V words for a SPIR-V descriptor, the source text for a WGSL one). */
  datatype ChainedStruct = ChainedStruct(sType: SType, code: seq<uint32>, source: string)

  /** ShaderModuleDescriptor: the `nextInChain` list, empty when `nextInChain` is null. */
  datatype ShaderModuleDescriptor = ShaderModuleDescriptor(chain: seq<ChainedStruct>)

  datatype DescriptorError =
    | MissingChainedDescriptor
    | ExtraChainedDescriptor
    | InvalidSpirv
    | InvalidWgsl
    | WgslNotSupported
    | UnsupportedSType

  /** The external validators and the build configuration the descriptor check consults:
      the SPIR-V validator, whether WGSL support is compiled in, and the WGSL validator. */
  datatype Validators = Validators(
    spirvValid: seq<uint32> -> bool,
    wgslEnabled: bool,
    wgslValid: string -> bool)

  /** The descriptors the device accepts: exactly one chained struct, which is valid
      SPIR-V or, in a build with WGSL support, valid WGSL. */
  predicate DescriptorAccepted(descriptor: ShaderModuleDescriptor, v: Validators)
  {
    && |descriptor.chain| == 1
    && var c := descriptor.chain[0];
       || (c.sType == ShaderModuleSPIRVDescriptor && v.spirvValid(c.code))
       || (c.sType == ShaderModuleWGSLDescriptor && v.wgslEnabled && v.wgslValid(c.source))
  }

  /** ValidateShaderModuleDescriptor: the chain is checked for presence, then for a
      second link, then the single struct is dispatched on its sType. */
  function ValidateShaderModuleDescriptor(descriptor: ShaderModuleDescriptor, v: Validators): (r: Outcome<DescriptorError>)
    ensures r.Pass? <==> DescriptorAccepted(descriptor, v)
    ensures r == Fail(MissingChainedDescriptor) <==> |descriptor.chain| == 0
    ensures r == Fail(ExtraChainedDescriptor) <==> |descriptor.chain| > 1
    ensures r == Fail(UnsupportedSType) <==> |descriptor.chain| == 1 && descriptor.chain[0].sType.OtherSType?
    ensures r == Fail(InvalidSpirv) <==>
              |descriptor.chain| == 1 && descriptor.chain[0].sType == ShaderModuleSPIRVDescriptor
              && !v.spirvValid(descriptor.chain[0].code)
    ensures r == Fail(WgslNotSupported) <==>
              |descriptor.chain| == 1 && descriptor.chain[0].sType == ShaderModuleWGSLDescriptor && !v.wgslEnabled
    ensures r == Fail(InvalidWgsl) <==>
              |descriptor.chain| == 1 && descriptor.chain[0].sType == ShaderModuleWGSLDescriptor && v.wgslEnabled
              && !v.wgslValid(descriptor.chain[0].source)
  {
    if |descriptor.chain| == 0 then Fail(MissingChainedDescriptor)
    else if |descriptor.chain| > 1 then Fail(ExtraChainedDescriptor)
    else
      var c := descriptor.chain[0];
      match c.sType
      case ShaderModuleSPIRVDescriptor =>
        if v.spirvValid(c.code) then Pass else Fail(InvalidSpirv)
      case ShaderModuleWGSLDescriptor =>
        if !v.wgslEnabled then Fail(WgslNotSupported)
        else if v.wgslValid(c.source) then Pass else Fail(InvalidWgsl)
      case OtherSType(_) => Fail(UnsupportedSType)
  }

  /** ShaderModuleBase's Type. */
  datatype ModuleType = Undefined | Spirv | Wgsl

  /** The state a shader module is constructed with. */
  datatype ShaderModuleState = ShaderModuleState(moduleType: ModuleType, spirv: seq<uint32>, wgsl: string)

  /** The constructor's precondition: a chained struct is present and is one of the two
      shader-module descriptors. */
  predicate Constructible(descriptor: ShaderModuleDescriptor)
  {
    |descriptor.chain| > 0 && !descriptor.chain[0].sType.OtherSType?
  }

  /** The ShaderModuleBase constructor: a SPIR-V module copies the descriptor's words, a
      WGSL module keeps its source text (its words are produced later from it). */
  function Construct(descriptor: ShaderModuleDescriptor): (m: ShaderModuleState)
    requires Constructible(descriptor)
    ensures m.moduleType == Spirv <==> descriptor.chain[0].sType == ShaderModuleSPIRVDescriptor
    ensures m.moduleType != Undefined
    ensures m.moduleType == Spirv ==> m.spirv == descriptor.chain[0].code
    ensures m.moduleType == Wgsl ==> m.spirv == [] && m.wgsl == descriptor.chain[0].source
  {
    var c := descriptor.chain[0];
    match c.sType
    case ShaderModuleSPIRVDescriptor => ShaderModuleState(Spirv, c.code, "")
    case ShaderModuleWGSLDescriptor => ShaderModuleState(Wgsl, [], c.source)
  }

  /** A descriptor that passed validation satisfies the constructor's assertions, and the
      module built from it has the validated content. */
  lemma ValidatedDescriptorConstructs(descriptor: ShaderModuleDescriptor, v: Validators)
    requires ValidateShaderModuleDescriptor(descriptor, v).Pass?
    ensures Constructible(descriptor)
    ensures var m := Construct(descriptor);
            || (m.moduleType == Spirv && v.spirvValid(m.spirv))
            || (m.moduleType == Wgsl && v.wgslEnabled && v.wgslValid(m.wgsl))
  {
  }

  /** The hash of a word sequence: `combine` (HashCombine) folded over the words from the
      first to the last, starting from 0. */
  function HashOf(words: seq<uint32>, combine: (uint64, uint32) -> uint64): uint64
    decreases |words|
  {
    if |words| == 0 then 0
    else combine(HashOf(words[..|words| - 1], combine), words[|words| - 1])
  }

  /** `combine` folded over `words` starting from `seed`. */
  function FoldFrom(seed: uint64, words: seq<uint32>, combine: (uint64, uint32) -> uint64): uint64
    decreases |words|
  {
    if |words| == 0 then seed
    else FoldFrom(combine(seed, words[0]), words[1..], combine)
  }

  /** Hashing is incremental: the hash of `a + b` continues the fold from the hash of `a`. */
  lemma {:induction false} HashOfAppend(a: seq<uint32>, b: seq<uint32>, combine: (uint64, uint32) -> uint64)
    ensures HashOf(a + b, combine) == FoldFrom(HashOf(a, combine), b, combine)
    decreases |b|
  {
    if |b| > 0 {
      var a' := a + [b[0]];
      assert a' + b[1..] == a + b;
      assert a'[..|a'| - 1] == a;
      assert HashOf(a', combine) == combine(HashOf(a, combine), b[0]);
      HashOfAppend(a', b[1..], combine);
    } else {
      assert a + b == a;
    }
  }

  /** HashFunc: folds HashCombine over the module's SPIR-V words, starting from 0. */
  method HashFunc(shaderModule: ShaderModuleState, combine: (uint64, uint32) -> uint64) returns (hash: uint64)
    ensures hash == FoldFrom(0, shaderModule.spirv, combine)
  {
    hash := 0;
    for i := 0 to |shaderModule.spirv|
      invariant hash == HashOf(shaderModule.spirv[..i], combine)
    {
      assert shaderModule.spirv[..i + 1][..i] == shaderModule.spirv[..i];
      hash := combine(hash, shaderModule.spirv[i]);
    }
    assert shaderModule.spirv[..|shaderModule.spirv|] == shaderModule.spirv;
    HashOfAppend([], shaderModule.spirv, combine);
    assert [] + shaderModule.spirv == shaderModule.spirv;
  }

  /** EqualityFunc: two modules are equal when their SPIR-V words are, word for word;
      equal modules then hash alike, whatever the combining function. */
  function EqualityFunc(a: ShaderModuleState, b: ShaderModuleState): (r: bool)
    ensures r <==> |a.spirv| == |b.spirv| && forall i :: 0 <= i < |a.spirv| ==> a.spirv[i] == b.spirv[i]
    ensures r ==> forall combine :: HashOf(a.spirv, combine) == HashOf(b.spirv, combine)
  {
    a.spirv == b.spirv
  }

  /** Two SPIR-V descriptors carrying the same words construct modules the cache treats
      as one. */
  lemma SameCodeSameModule(d1: ShaderModuleDescriptor, d2: ShaderModuleDescriptor)
    requires Constructible(d1) && Constructible(d2)
    requires d1.chain[0].sType == ShaderModuleSPIRVDescriptor && d2.chain[0].sType == ShaderModuleSPIRVDescriptor
    requires d1.chain[0].code == d2.chain[0].code
    ensures EqualityFunc(Construct(d1), Construct(d2))
  {
  }
}

=== FILE: spirv_conversions.dfy ===
/** The small total maps from SPIR-V reflection enumerations to WebGPU enumerations
    that the reflection step applies to image types and stage outputs. */
module SpirvConversions {
  import opened Wrappers
  import opened WebGPU

  /** spv::Dim */
  datatype SpvDim = Dim1D | Dim2D | Dim3D | DimCube | DimRect | DimBuffer | DimSubpassData {
    /** The dimensionalities a texture view can have. */
    predicate IsViewable() {
      Dim1D? || Dim2D? || Dim3D? || DimCube?
    }
  }

  /** spirv_cross::SPIRType::BaseType */
  datatype SpvBaseType =
    | UnknownType | Void | Boolean | SByte | UByte | Short | UShort
    | Int | UInt | Int64 | UInt64 | AtomicCounter | Half | FloatType | Double
    | Struct | Image | SampledImage | SamplerType

  /** spv::ImageFormat, the declared format of a storage image. */
  datatype SpvImageFormat =
    | Unknown
    | Rgba32f | Rgba16f | R32f | Rgba8 | Rgba8Snorm | Rg32f | Rg16f | R11fG11fB10f
    | R16f | Rgba16 | Rgb10A2 | Rg16 | Rg8 | R16 | R8
    | Rgba16Snorm | Rg16Snorm | Rg8Snorm | R16Snorm | R8Snorm
    | Rgba32i | Rgba16i | Rgba8i | R32i | Rg32i | Rg16i | Rg8i | R16i | R8i
    | Rgba32ui | Rgba16ui | Rgba8ui | R32ui | Rgb10a2ui | Rg32ui | Rg16ui | Rg8ui | R16ui | R8ui

  // ---------------------------------------------------------------------------------
  // View dimension

  /** Whether a view dimension addresses an array of layers. */
  predicate IsArrayView(v: TextureViewDimension) {
    v.View2DArray? || v.ViewCubeArray?
  }

  /** The SPIR-V dimensionality a (defined) view dimension is built on. */
  function BaseDim(v: TextureViewDimension): Option<SpvDim> {
    match v
    case ViewUndefined => None
    case View1D => Some(Dim1D)
    case View2D | View2DArray => Some(Dim2D)
    case ViewCube | ViewCubeArray => Some(DimCube)
    case View3D => Some(Dim3D)
  }

  /** The view dimension of a sampled or storage image: it keeps the image's
      dimensionality and is an array view exactly when a 2D or cube image is arrayed;
      the arrayed flag of a 1D or 3D image is dropped. A dimensionality no view can
      have gives `ViewUndefined`. */
  function SpirvDimToTextureViewDimension(dim: SpvDim, arrayed: bool): (r: TextureViewDimension)
    ensures r == ViewUndefined <==> !dim.IsViewable()
    ensures dim.IsViewable() ==> BaseDim(r) == Some(dim)
    ensures IsArrayView(r) <==> arrayed && (dim.Dim2D? || dim.DimCube?)
  {
    match dim
    case Dim1D => View1D
    case Dim2D => if arrayed then View2DArray else View2D
    case Dim3D => View3D
    case DimCube => if arrayed then ViewCubeArray else ViewCube
    case _ => ViewUndefined
  }

  /** Two images get the same view dimension exactly when neither can be viewed, or
      they have the same viewable dimensionality and, for 2D and cube images, the same
      arrayed flag. */
  lemma ViewDimensionInjective(d1: SpvDim, a1: bool, d2: SpvDim, a2: bool)
    ensures SpirvDimToTextureViewDimension(d1, a1) == SpirvDimToTextureViewDimension(d2, a2)
            <==> || (!d1.IsViewable() && !d2.IsViewable())
                 || (d1.IsViewable() && d1 == d2 && (d1.Dim2D? || d1.DimCube? ==> a1 == a2))
  {
  }

  // ---------------------------------------------------------------------------------
  // Component base type

  /** The format type of a scalar base type: float, signed and unsigned 32-bit integers
      map to their own type and every other base type maps to `Other`. */
  function SpirvBaseTypeToFormatType(t: SpvBaseType): (r: FormatType)
    ensures r.Float? <==> t.FloatType?
    ensures r.Sint? <==> t.Int?
    ensures r.Uint? <==> t.UInt?
  {
    match t
    case FloatType => Float
    case Int => Sint
    case UInt => Uint
    case _ => Other
  }

  // ---------------------------------------------------------------------------------
  // Storage image format

  /** The WebGPU format of a declared storage-image format, `Undefined` exactly for the
      formats WebGPU has no counterpart for. */
  function ToWGPUTextureFormat(f: SpvImageFormat): (r: TextureFormat)
    ensures r == Undefined <==> HasNoWGPUFormat(f)
  {
    match f
    case R8 => R8Unorm
    case R8Snorm => WebGPU.R8Snorm
    case R8ui => R8Uint
    case R8i => R8Sint
    case R16ui => R16Uint
    case R16i => R16Sint
    case R16f => R16Float
    case Rg8 => RG8Unorm
    case Rg8Snorm => RG8Snorm
    case Rg8ui => RG8Uint
    case Rg8i => RG8Sint
    case R32f => R32Float
    case R32ui => R32Uint
    case R32i => R32Sint
    case Rg16ui => RG16Uint
    case Rg16i => RG16Sint
    case Rg16f => RG16Float
    case Rgba8 => RGBA8Unorm
    case Rgba8Snorm => RGBA8Snorm
    case Rgba8ui => RGBA8Uint
    case Rgba8i => RGBA8Sint
    case Rgb10A2 => RGB10A2Unorm
    case R11fG11fB10f => RG11B10Ufloat
    case Rg32f => RG32Float
    case Rg32ui => RG32Uint
    case Rg32i => RG32Sint
    case Rgba16ui => RGBA16Uint
    case Rgba16i => RGBA16Sint
    case Rgba16f => RGBA16Float
    case Rgba32f => RGBA32Float
    case Rgba32ui => RGBA32Uint
    case Rgba32i => RGBA32Sint
    case _ => Undefined
  }

  /** The declared formats without a WebGPU counterpart: the unknown format, the 16-bit
      normalized formats and the unsigned 10-10-10-2 format. */
  predicate HasNoWGPUFormat(f: SpvImageFormat) {
    f.Unknown? || f.Rgba16? || f.Rg16? || f.R16? || f.Rgba16Snorm? || f.Rg16Snorm?
    || f.R16Snorm? || f.Rgb10a2ui?
  }

  /** No two declared formats share a WebGPU format. */
  lemma ToWGPUTextureFormatInjective(f: SpvImageFormat, g: SpvImageFormat)
    ensures ToWGPUTextureFormat(f) == ToWGPUTextureFormat(g) != Undefined ==> f == g
  {
    // One case per declared format keeps each comparison against `g` small.
    match f
    case Unknown =>
    case Rgba32f =>
    case Rgba16f =>
    case R32f =>
    case Rgba8 =>
    case Rgba8Snorm =>
    case Rg32f =>
    case Rg16f =>
    case R11fG11fB10f =>
    case R16f =>
    case Rgba16 =>
    case Rgb10A2 =>
    case Rg16 =>
    case Rg8 =>
    case R16 =>
    case R8 =>
    case Rgba16Snorm =>
    case Rg16Snorm =>
    case Rg8Snorm =>
    case R16Snorm =>
    case R8Snorm =>
    case Rgba32i =>
    case Rgba16i =>
    case Rgba8i =>
    case R32i =>
    case Rg32i =>
    case Rg16i =>
    case Rg8i =>
    case R16i =>
    case R8i =>
    case Rgba32ui =>
    case Rgba16ui =>
    case Rgba8ui =>
    case R32ui =>
    case Rgb10a2ui =>
    case Rg32ui =>
    case Rg16ui =>
    case Rg8ui =>
    case R16ui =>
    case R8ui =>
  }
}

=== FILE: texture_utils.dfy ===
/** The static format-family tables of the test utilities: the list of every defined
    texture format and its compressed sub-families (BC, ETC2, ASTC). The lemmas prove the
    table invariants: the compressed list is exactly the concatenation of the families,
    the families are disjoint, and the full list has 63 pairwise-distinct entries that
    include every compressed one. The proofs use that the full list runs through the
    format codes in increasing order. */
module TextureUtils {
  import opened WebGPU

  // The uncompressed part of the full list, in the same order, grouped by texel size.
  const kFormats8Bit: seq<TextureFormat> := [
      R8Unorm, R8Snorm, R8Uint, R8Sint]
  const kFormats16Bit: seq<TextureFormat> := [
      R16Uint, R16Sint, R16Float, RG8Unorm, RG8Snorm, RG8Uint, RG8Sint]
  const kFormats32Bit: seq<TextureFormat> := [
      R32Float, R32Uint, R32Sint, RG16Uint, RG16Sint, RG16Float,
      RGBA8Unorm, RGBA8UnormSrgb, RGBA8Snorm, RGBA8Uint, RGBA8Sint, BGRA8Unorm, BGRA8UnormSrgb,
      RGB10A2Unorm, RG11B10Ufloat, RGB9E5Ufloat]
  const kFormats64Bit: seq<TextureFormat> := [
      RG32Float, RG32Uint, RG32Sint, RGBA16Uint, RGBA16Sint, RGBA16Float]
  const kFormats128Bit: seq<TextureFormat> := [
      RGBA32Float, RGBA32Uint, RGBA32Sint]
  const kDepthStencilFormats: seq<TextureFormat> := [
      Depth32Float, Depth24Plus, Depth24PlusStencil8]

  /** kAllTextureFormats: every defined format, uncompressed ones first. The last two
      runs repeat the compressed families literally, as the table does. */
  const kAllTextureFormats: seq<TextureFormat> :=
    kFormats8Bit + kFormats16Bit + kFormats32Bit + kFormats64Bit + kFormats128Bit
    + kDepthStencilFormats
    + [BC1RGBAUnorm, BC1RGBAUnormSrgb, BC2RGBAUnorm, BC2RGBAUnormSrgb,
      BC3RGBAUnorm, BC3RGBAUnormSrgb, BC4RUnorm, BC4RSnorm, BC5RGUnorm, BC5RGSnorm,
      BC6HRGBUfloat, BC6HRGBFloat, BC7RGBAUnorm, BC7RGBAUnormSrgb]
    + [ETC2RGB8Unorm, ETC2RGB8UnormSrgb, ETC2RGB8A1Unorm, ETC2RGB8A1UnormSrgb,
      ETC2RGBA8Unorm, ETC2RGBA8UnormSrgb, EACR11Unorm, EACR11Snorm, EACRG11Unorm, EACRG11Snorm]

  const kBCFormats: seq<TextureFormat> := [
      BC1RGBAUnorm, BC1RGBAUnormSrgb, BC2RGBAUnorm, BC2RGBAUnormSrgb,
      BC3RGBAUnorm, BC3RGBAUnormSrgb, BC4RUnorm, BC4RSnorm, BC5RGUnorm, BC5RGSnorm,
      BC6HRGBUfloat, BC6HRGBFloat, BC7RGBAUnorm, BC7RGBAUnormSrgb]

  const kETC2Formats: seq<TextureFormat> := [
      ETC2RGB8Unorm, ETC2RGB8UnormSrgb, ETC2RGB8A1Unorm, ETC2RGB8A1UnormSrgb,
      ETC2RGBA8Unorm, ETC2RGBA8UnormSrgb, EACR11Unorm, EACR11Snorm, EACRG11Unorm, EACRG11Snorm]

  /** No ASTC format is implemented yet. */
  const kASTCFormats: seq<TextureFormat> := []

  const kCompressedFormats: seq<TextureFormat> := [
      BC1RGBAUnorm, BC1RGBAUnormSrgb, BC2RGBAUnorm, BC2RGBAUnormSrgb,
      BC3RGBAUnorm, BC3RGBAUnormSrgb, BC4RUnorm, BC4RSnorm, BC5RGUnorm, BC5RGSnorm,
      BC6HRGBUfloat, BC6HRGBFloat, BC7RGBAUnorm, BC7RGBAUnormSrgb,
      ETC2RGB8Unorm, ETC2RGB8UnormSrgb, ETC2RGB8A1Unorm, ETC2RGB8A1UnormSrgb,
      ETC2RGBA8Unorm, ETC2RGBA8UnormSrgb, EACR11Unorm, EACR11Snorm, EACRG11Unorm, EACRG11Snorm]

  /** Every entry of `s` has a smaller code than every later entry. */
  predicate Increasing(s: seq<TextureFormat>)
  {
    forall i, j :: 0 <= i < j < |s| ==> s[i] < s[j]
  }

  /** No entry of `s` is repeated. */
  predicate Distinct<T(==)>(s: seq<T>)
  {
    forall i, j :: 0 <= i < j < |s| ==> s[i] != s[j]
  }

  /** Every entry of `s` has a code between `lo` and `hi`. */
  predicate CodesWithin(s: seq<TextureFormat>, lo: TextureFormat, hi: TextureFormat)
  {
    forall i :: 0 <= i < |s| ==> lo <= s[i] <= hi
  }

  /** Two increasing lists, the first entirely below the second, concatenate to an
      increasing list whose codes span both ranges. */
  lemma IncreasingConcat(a: seq<TextureFormat>, b: seq<TextureFormat>,
                         lo: TextureFormat, mid: TextureFormat, next: TextureFormat, hi: TextureFormat)
    requires Increasing(a) && Increasing(b)
    requires CodesWithin(a, lo, mid) && CodesWithin(b, next, hi) && lo <= mid < next <= hi
    ensures Increasing(a + b)
    ensures CodesWithin(a + b, lo, hi)
  {
    forall i, j | 0 <= i < j < |a + b|
      ensures (a + b)[i] < (a + b)[j]
    {
      if j < |a| {
        assert (a + b)[i] == a[i] && (a + b)[j] == a[j];
      } else if i < |a| {
        assert (a + b)[i] == a[i] && (a + b)[j] == b[j - |a|];
      } else {
        assert (a + b)[i] == b[i - |a|] && (a + b)[j] == b[j - |a|];
      }
    }
    forall i | 0 <= i < |a + b|
      ensures lo <= (a + b)[i] <= hi
    {
      if i >= |a| {
        assert (a + b)[i] == b[i - |a|];
      }
    }
  }

  /** An increasing list has no repeated entry. */
  lemma IncreasingDistinct(s: seq<TextureFormat>)
    requires Increasing(s)
    ensures Distinct(s)
  {
  }

  // Each run of the full list is increasing within its own range of codes.

  lemma Formats8BitIncreasing()
    ensures Increasing(kFormats8Bit) && CodesWithin(kFormats8Bit, R8Unorm, R8Sint)
  {
  }

  lemma Formats16BitIncreasing()
    ensures Increasing(kFormats16Bit) && CodesWithin(kFormats16Bit, R16Uint, RG8Sint)
  {
  }

  lemma Formats32BitIncreasing()
    ensures Increasing(kFormats32Bit) && CodesWithin(kFormats32Bit, R32Float, RGB9E5Ufloat)
  {
  }

  lemma Formats64BitIncreasing()
    ensures Increasing(kFormats64Bit) && CodesWithin(kFormats64Bit, RG32Float, RGBA16Float)
  {
  }

  lemma Formats128BitIncreasing()
    ensures Increasing(kFormats128Bit) && CodesWithin(kFormats128Bit, RGBA32Float, RGBA32Sint)
  {
  }

  lemma DepthStencilFormatsIncreasing()
    ensures Increasing(kDepthStencilFormats) && CodesWithin(kDepthStencilFormats, Depth32Float, Depth24PlusStencil8)
  {
  }

  lemma BCFormatsIncreasing()
    ensures Increasing(kBCFormats) && CodesWithin(kBCFormats, BC1RGBAUnorm, BC7RGBAUnormSrgb)
  {
  }

  lemma ETC2FormatsIncreasing()
    ensures Increasing(kETC2Formats) && CodesWithin(kETC2Formats, ETC2RGB8Unorm, EACRG11Snorm)
  {
  }

  /** The full list is the uncompressed runs followed by the BC and ETC2 families. */
  lemma AllTextureFormatsLayout()
    ensures kAllTextureFormats ==
      kFormats8Bit + kFormats16Bit + kFormats32Bit + kFormats64Bit + kFormats128Bit
      + kDepthStencilFormats + kBCFormats + kETC2Formats
  {
  }

  /** The compressed list is exactly the BC family followed by the ETC2 family, and the
      ASTC family is empty; hence its size is the sum of the three family sizes. */
  lemma CompressedFormatsArePartition()
    ensures kCompressedFormats == kBCFormats + kETC2Formats + kASTCFormats
    ensures kASTCFormats == []
    ensures |kCompressedFormats| == |kBCFormats| + |kETC2Formats| + |kASTCFormats|
  {
  }

  /** No format is both a BC and an ETC2 format. */
  lemma BCAndETC2Disjoint()
    ensures forall f :: f in kBCFormats ==> f !in kETC2Formats
  {
    BCFormatsIncreasing();
    ETC2FormatsIncreasing();
  }

  /** Every compressed format is one of the listed texture formats. */
  lemma CompressedFormatsListed()
    ensures forall f :: f in kCompressedFormats ==> f in kAllTextureFormats
  {
    CompressedFormatsArePartition();
    AllTextureFormatsLayout();
  }

  /** The full list runs through the codes 1 to 63 in increasing order. */
  lemma AllTextureFormatsIncreasing()
    ensures Increasing(kAllTextureFormats)
    ensures CodesWithin(kAllTextureFormats, R8Unorm, EACRG11Snorm)
  {
    Formats8BitIncreasing();
    Formats16BitIncreasing();
    Formats32BitIncreasing();
    Formats64BitIncreasing();
    Formats128BitIncreasing();
    DepthStencilFormatsIncreasing();
    BCFormatsIncreasing();
    ETC2FormatsIncreasing();
    var s := kFormats8Bit;
    IncreasingConcat(s, kFormats16Bit, R8Unorm, R8Sint, R16Uint, RG8Sint);
    s := s + kFormats16Bit;
    IncreasingConcat(s, kFormats32Bit, R8Unorm, RG8Sint, R32Float, RGB9E5Ufloat);
    s := s + kFormats32Bit;
    IncreasingConcat(s, kFormats64Bit, R8Unorm, RGB9E5Ufloat, RG32Float, RGBA16Float);
    s := s + kFormats64Bit;
    IncreasingConcat(s, kFormats128Bit, R8Unorm, RGBA16Float, RGBA32Float, RGBA32Sint);
    s := s + kFormats128Bit;
    IncreasingConcat(s, kDepthStencilFormats, R8Unorm, RGBA32Sint, Depth32Float, Depth24PlusStencil8);
    s := s + kDepthStencilFormats;
    IncreasingConcat(s, kBCFormats, R8Unorm, Depth24PlusStencil8, BC1RGBAUnorm, BC7RGBAUnormSrgb);
    s := s + kBCFormats;
    IncreasingConcat(s, kETC2Formats, R8Unorm, BC7RGBAUnormSrgb, ETC2RGB8Unorm, EACRG11Snorm);
    s := s + kETC2Formats;
    AllTextureFormatsLayout();
  }

  /** The full list has 63 pairwise-distinct entries, none of them `Undefined`. */
  lemma AllTextureFormatsDistinct()
    ensures |kAllTextureFormats| == 63
    ensures Distinct(kAllTextureFormats)
    ensures Undefined !in kAllTextureFormats
  {
    AllTextureFormatsIncreasing();
    IncreasingDistinct(kAllTextureFormats);
  }
}

=== FILE: webgpu.dfy ===
/** The WebGPU enumerations and hardware limits the shader-module core reads.
    Integer identifiers of the C++ API (group indices, binding numbers, locations,
    byte sizes) are modelled as `nat`: the core only compares them, so no wrap-around
    can arise. */
module WebGPU {

  /** Limits of common/Constants.h (that file is not part of this model). */
  const kMaxBindGroups: nat := 4
  const kMaxVertexAttributes: nat := 16
  const kMaxColorAttachments: nat := 4

  /** The stage of the single entry point a module exposes. */
  datatype SingleShaderStage = Vertex | Fragment | Compute

  /** wgpu::ShaderStage flags: a layout entry's visibility is a bitmask of stages. */
  type ShaderStageFlags = bv32

  /** The visibility bit of one stage. */
  function StageBit(stage: SingleShaderStage): (bit: ShaderStageFlags)
    ensures bit != 0
  {
    match stage
    case Vertex => 1
    case Fragment => 2
    case Compute => 4
  }

  /** Each stage owns its own bit, so testing `visibility & StageBit(s)` asks about
      stage `s` and about no other stage. */
  lemma StageBitsDisjoint(s: SingleShaderStage, t: SingleShaderStage)
    ensures (StageBit(s) & StageBit(t) != 0) <==> s == t
  {
  }

  /** wgpu::BindingType */
  datatype BindingType =
    | UniformBuffer
    | StorageBuffer
    | ReadonlyStorageBuffer
    | Sampler
    | ComparisonSampler
    | SampledTexture
    | StorageTexture
    | ReadonlyStorageTexture
    | WriteonlyStorageTexture
  {
    predicate IsBuffer() {
      UniformBuffer? || StorageBuffer? || ReadonlyStorageBuffer?
    }

    predicate IsSamplerKind() {
      Sampler? || ComparisonSampler?
    }

    predicate IsSizedStorageTexture() {
      ReadonlyStorageTexture? || WriteonlyStorageTexture?
    }
  }

  /** wgpu::TextureViewDimension */
  datatype TextureViewDimension =
    | ViewUndefined
    | View1D
    | View2D
    | View2DArray
    | ViewCube
    | ViewCubeArray
    | View3D

  /** Format::Type: the base component type of a texture or of a fragment output. */
  datatype FormatType = Float | Sint | Uint | Other

  /** wgpu::TextureFormat, an enumeration with integer codes. The model numbers
      `Undefined` 0 and the 63 defined formats 1 to 63 in the order in which the full
      format table of the test utilities lists them. */
  newtype TextureFormat = code: int | 0 <= code < 64

  const Undefined: TextureFormat := 0
  const R8Unorm: TextureFormat := 1
  const R8Snorm: TextureFormat := 2
  const R8Uint: TextureFormat := 3
  const R8Sint: TextureFormat := 4
  const R16Uint: TextureFormat := 5
  const R16Sint: TextureFormat := 6
  const R16Float: TextureFormat := 7
  const RG8Unorm: TextureFormat := 8
  const RG8Snorm: TextureFormat := 9
  const RG8Uint: TextureFormat := 10
  const RG8Sint: TextureFormat := 11
  const R32Float: TextureFormat := 12
  const R32Uint: TextureFormat := 13
  const R32Sint: TextureFormat := 14
  const RG16Uint: TextureFormat := 15
  const RG16Sint: TextureFormat := 16
  const RG16Float: TextureFormat := 17
  const RGBA8Unorm: TextureFormat := 18
  const RGBA8UnormSrgb: TextureFormat := 19
  const RGBA8Snorm: TextureFormat := 20
  const RGBA8Uint: TextureFormat := 21
  const RGBA8Sint: TextureFormat := 22
  const BGRA8Unorm: TextureFormat := 23
  const BGRA8UnormSrgb: TextureFormat := 24
  const RGB10A2Unorm: TextureFormat := 25
  const RG11B10Ufloat: TextureFormat := 26
  const RGB9E5Ufloat: TextureFormat := 27
  const RG32Float: TextureFormat := 28
  const RG32Uint: TextureFormat := 29
  const RG32Sint: TextureFormat := 30
  const RGBA16Uint: TextureFormat := 31
  const RGBA16Sint: TextureFormat := 32
  const RGBA16Float: TextureFormat := 33
  const RGBA32Float: TextureFormat := 34
  const RGBA32Uint: TextureFormat := 35
  const RGBA32Sint: TextureFormat := 36
  const Depth32Float: TextureFormat := 37
  const Depth24Plus: TextureFormat := 38
  const Depth24PlusStencil8: TextureFormat := 39
  const BC1RGBAUnorm: TextureFormat := 40
  const BC1RGBAUnormSrgb: TextureFormat := 41
  const BC2RGBAUnorm: TextureFormat := 42
  const BC2RGBAUnormSrgb: TextureFormat := 43
  const BC3RGBAUnorm: TextureFormat := 44
  const BC3RGBAUnormSrgb: TextureFormat := 45
  const BC4RUnorm: TextureFormat := 46
  const BC4RSnorm: TextureFormat := 47
  const BC5RGUnorm: TextureFormat := 48
  const BC5RGSnorm: TextureFormat := 49
  const BC6HRGBUfloat: TextureFormat := 50
  const BC6HRGBFloat: TextureFormat := 51
  const BC7RGBAUnorm: TextureFormat := 52
  const BC7RGBAUnormSrgb: TextureFormat := 53
  const ETC2RGB8Unorm: TextureFormat := 54
  const ETC2RGB8UnormSrgb: TextureFormat := 55
  const ETC2RGB8A1Unorm: TextureFormat := 56
  const ETC2RGB8A1UnormSrgb: TextureFormat := 57
  const ETC2RGBA8Unorm: TextureFormat := 58
  const ETC2RGBA8UnormSrgb: TextureFormat := 59
  const EACR11Unorm: TextureFormat := 60
  const EACR11Snorm: TextureFormat := 61
  const EACRG11Unorm: TextureFormat := 62
  const EACRG11Snorm: TextureFormat := 63
}

=== FILE: wrappers.dfy ===
/** Failure-compatible wrappers used for the tagged results of the shader-module core:
    every step either yields its value or the first error it met, never partial data. */
module Wrappers {

  datatype Option<+T> = None | Some(value: T)

  /** A value, or the error tag of the first check that failed. */
  datatype Result<+T, +E> = Ok(value: T) | Err(error: E) {
    predicate IsFailure() {
      Err?
    }

    function PropagateFailure<U>(): Result<U, E>
      requires Err?
    {
      Err(error)
    }

    function Extract(): T
      requires Ok?
    {
      value
    }
  }

  /** A check that carries no value: it passes, or fails with an error tag. */
  datatype Outcome<+E> = Pass | Fail(error: E) {
    predicate IsFailure() {
      Fail?
    }

    function PropagateFailure(): Outcome<E>
      requires Fail?
    {
      this
    }
  }
}
